=== FILE: README.md ===
# REVO repository sampling, modelled in Dafny

REVO explains GitHub repositories with a language model. Before the model sees
anything, a sampling pipeline picks a small set of representative files and
builds a payload from them:

1. It fetches the repository metadata.
2. It resolves the file tree: the default branch's tree, else the tree of the
   branch's head commit.
3. It scores every path against a weight table. Junk extensions get a hard
   exclusion score.
4. It ranks the paths, stably and by descending score, and caps the selection.
5. It fetches the selected files, redacts secrets and truncates each text to a
   snippet.
6. It assembles the payload and a text preview.

The pipeline exists twice: in a background Web Worker
(`src/worker/repoWorker.js`) and inline in the page (`src/App.jsx`). The two
copies differ in their weight tables and their selection rules, and only the
inline copy screens sensitive paths. The page hands the payload to an analysis
endpoint (`api/analyzeRepo.ts`). A second endpoint (`api/askRevo.ts`) answers
questions about the repository. A browser content script
(`public/content.js`) reads the repository from the GitHub URL and decides
which kind of page it is on.

The model removes the network. Every HTTP exchange is answered by a `Host`
record of total functions. Each response either failed (the fetch rejected),
came back with a non-ok status, or came back ok with a parsed body. The
language model is likewise a function from the prompt to a completion or a
thrown error. With the network gone, every stage is a pure function, or a
method with loop invariants where the source loops. Each pipeline also returns
the list of requests it made, so "no request is made" can be stated and proved.

Modules, in dependency order:

- `Wrappers`: `Option` and `Result`.
- `JsText`: the JavaScript string semantics the code relies on. This covers
  `toLowerCase` and `/i` (ASCII only), `includes`, `trim`, `slice(0, n)` with
  a negative `n`, `join`/`split`, `||` on strings, template-literal rendering
  of missing values as `undefined`, and `filter`.
- `Scoring`: both weight tables, the junk and fallback extension lists, and
  `scoreFile`.
- `Ranking`: the stable descending sort, and a proof that it is the only
  arrangement a stable sort may return.
- `Selection`: the worker's ranked-plus-top-level selection and the inline
  ranked-or-fallback selection.
- `Redaction`: the secret-redacting replacement, written as a left-to-right
  regular-expression scan.
- `GitHub`: responses, metadata, tree resolution and blob listing.
- `FetchPool`: per-path fetching, the worker's index-addressed pool, chunking,
  and the inline path's chunked fetch with its sensitive-path screen.
- `Worker` and `Inline`: the two pipelines end to end.
- `Api`, `AnalyzeRepo` and `AskRevo`: the endpoints.
- `Handoff`: the page's request to the analysis endpoint.
- `ContentScript`: URL parsing, page routing, the URL-change check, the drawer's
  snap choice and the frame address.

Points where the code behaves differently from what one might expect:

- The worker adds the first five top-level paths to the ranking. A top-level
  junk file such as `logo.png` can therefore be selected despite its -999
  score (`Selection.WorkerSelectsTopLevel`; `Selection.TopLevelJunkExists`
  gives the example).
- The tree only has to be present. An empty `tree` array is accepted and
  yields an empty selection.
- The sensitive-path pattern needs a dot at the start of a segment
  (`.secrets`, `.credentials`, `.env…`). It has no end anchor, so `.envrc` is
  sensitive and `secrets.txt` is not.
- The two copies use different messages for a missing tree: "Could not
  retrieve repo tree." in the worker and "Could not retrieve repository tree."
  inline.
- A path like `/pull/7` has exactly two segments, yet it is routed as a pull
  request, because that test comes first (`ContentScript.PullTestComesFirst`).

## Model

| member | source | states |
|---|---|---|
| Scoring.ScoreFile | src/worker/repoWorker.js:90-98 | the loop that adds the weight of every matching row computes the score: -999 for a junk extension, otherwise the sum of the matched weights |
| Scoring.ScoreNonNegativeUnlessJunk | src/worker/repoWorker.js:90-98 | a path without a junk extension never scores below zero, and the only negative score is -999 |
| Scoring.ScorePositiveIff | src/App.jsx:174-178 | with positive weights, a path scores above zero exactly when it is not junk and some table pattern occurs in its lower-cased text |
| Scoring.MatchedWeightAppend | src/worker/repoWorker.js:93-97 | the score against a table `a + b` is the score against `a` plus the score against `b`, so swapping two parts of the table does not change it |
| Scoring.JunkExcludesFallback | src/App.jsx:175-182 | no path has both a junk extension and an inline-fallback extension, so the fallback never selects a junk path |
| Ranking.Rank | src/worker/repoWorker.js:100-103 | the ranking holds exactly the positively scored entries of the tree, in non-increasing score order |
| Ranking.RankScoreClasses | src/worker/repoWorker.js:100-103 | within each score the ranking keeps tree order, and no entry with score ≤ 0 appears |
| Ranking.StableSortIsSortDescending | src/App.jsx:180 | any sorted arrangement that keeps each score class in input order equals the modelled sort, so the engine's stable sort gives this result |
| Selection.Dedupe | src/worker/repoWorker.js:106 | `Array.from(new Set(...))` keeps exactly the elements not already seen, each once, in an order that is a subsequence of the input |
| Selection.DedupeFirstOccurrence | src/worker/repoWorker.js:106 | an element stands at its first occurrence: after what the part before it keeps and before whatever new follows it |
| Selection.DedupeAppend | src/worker/repoWorker.js:106 | removing repeats from a concatenation keeps the left part's result and adds only what the right part brings that is new |
| Selection.TopLevel | src/worker/repoWorker.js:105 | the first five slash-free tree paths in tree order, or all of them when there are fewer |
| Selection.TopLevelSkipsOnlyLater | src/worker/repoWorker.js:105 | a slash-free path is left out only when five slash-free paths before it were taken |
| Selection.RankedPaths | src/worker/repoWorker.js:100-103 | a path is ranked exactly when it is in the tree and scores above zero |
| Selection.WorkerSelect | src/worker/repoWorker.js:105-109 | the worker's selection has no duplicates and at most `sampleLimit` paths, each from the tree and either ranked or top-level |
| Selection.WorkerSelectShape | src/worker/repoWorker.js:105-109 | for a tree without repeated paths, the selection is the ranking followed by the top-level paths not already in it, cut to the limit |
| Selection.WorkerSelectRankedPrefix | src/worker/repoWorker.js:105-109 | while the limit is within the ranking, the selection is that prefix of the ranking |
| Selection.WorkerSelectsTopLevel | src/worker/repoWorker.js:105-109 | with room for the whole ranking, every one of the first five top-level paths is selected whatever it scores |
| Selection.InlineSelect | src/App.jsx:180-182 | the inline selection has at most 15 paths, all from the tree and none junk |
| Selection.InlineSelectRanked | src/App.jsx:180-181 | when some path scores positively, the selection is the first 15 of the ranking, non-empty and in non-increasing score order |
| Selection.InlineSelectFallback | src/App.jsx:182 | when no path scores positively, the selection is the first 15 source or documentation paths in tree order |
| Redaction.KeyNamesGood | src/worker/repoWorker.js:114 | no key word of the pattern is empty or a prefix of another, so at most one key word matches at any position |
| Redaction.MatchAssignment | src/worker/repoWorker.js:112-117 | at an assignment (a key word in any case, optional spaces, `:` or `=`, optional spaces, a maximal run of value characters) the pattern matches from the key to the end of the value |
| Redaction.RedactReplacesValue | src/worker/repoWorker.js:112-117 | redaction keeps the key as written, replaces the separator and value by `: [REDACTED]`, and resumes after the value |
| Redaction.RedactSecretAssignment | src/App.jsx:95-100 | a text that opens with an assignment of one of the six key words is redacted that way |
| Redaction.RedactSkips | src/worker/repoWorker.js:112-117 | text where no match starts is copied character by character |
| Redaction.MatchIsAssignment | src/worker/repoWorker.js:112-117 | conversely, every match of the pattern is such an assignment, from the key to the end of the value |
| Redaction.RedactWithoutSecrets | src/worker/repoWorker.js:112-117 | text with no assignment of a secret anywhere comes back unchanged |
| Redaction.Snippet | src/worker/repoWorker.js:137 | a snippet is the prefix of the redacted text that `slice(0, maxLength)` keeps: `maxLength` characters or the whole text if shorter, and for a negative `maxLength` all but that many from the end |
| Redaction.SnippetOfPlainText | src/worker/repoWorker.js:137 | a text without secret assignments that fits the length limit is sampled whole |
| GitHub.DefaultBranch | src/worker/repoWorker.js:29 | the branch is the metadata's non-empty default branch, else `main` |
| GitHub.TreeRef | src/worker/repoWorker.js:48-49 | the second tree request uses the commit's truthy tree sha; a tree object without one is interpolated as `[object Object]`; a tree string is used as it is; a missing or empty value means no request |
| GitHub.MetaFailed | src/worker/repoWorker.js:27 | the non-ok metadata message carries the status, which can be read back from its digits |
| GitHub.ResolveTree | src/worker/repoWorker.js:31-61 | resolution first asks for the branch tree and makes at most three tree or commit requests; an error other than the missing-tree message is the message of a request that rejected |
| GitHub.PrefersBranchTree | src/worker/repoWorker.js:32-39 | an ok branch tree is used, and nothing else is requested |
| GitHub.FallsBackToCommitTree | src/worker/repoWorker.js:41-57 | without a branch tree, the commit's tree reference is fetched and its tree used |
| GitHub.ResolvedTreeIsFetched | src/worker/repoWorker.js:31-61 | every resolved tree is the body of an ok tree response for the branch or for the commit's tree reference |
| GitHub.MissingTreeFails | src/worker/repoWorker.js:59-61 | when no request yields a tree and none rejects, the run fails with the missing-tree message |
| GitHub.BlobsMembers | src/worker/repoWorker.js:64 | the listed paths are exactly the paths of the `blob` entries |
| GitHub.BlobsAppend | src/App.jsx:153 | listing the blobs of a concatenation lists each part's blobs in turn, so tree order is kept |
| FetchPool.FetchOne | src/worker/repoWorker.js:128-141 | a requested path whose fetch is ok gets exactly the snippet of its body; a screened sensitive path gets the placeholder; a failure gives nothing |
| FetchPool.GatherKeepsOrder | src/worker/repoWorker.js:147 | the samples' paths are a subsequence of the selection |
| FetchPool.GatherKeepsSuccesses | src/App.jsx:199-207 | every path whose fetch succeeds, or that is screened, has a sample; only failed fetches are dropped |
| FetchPool.PresentSlots | src/worker/repoWorker.js:121-147 | dropping the empty slots of the index-addressed result array gives the samples in selection order |
| FetchPool.FetchWithConcurrency | src/worker/repoWorker.js:120-148 | the pool requests each index exactly once, in index order. A negative worker count fails with "Invalid array length", zero workers fetch nothing, and otherwise the result is the gathered samples |
| FetchPool.Chunk | src/App.jsx:187-189 | the chunks concatenate back to the selection, each holds 1 to 5 paths, and all but the last hold exactly 5 |
| FetchPool.FetchInChunks | src/App.jsx:191-210 | fetching chunk by chunk gives the same samples and requests as fetching the selection in one pass |
| FetchPool.RequestsScreen | src/App.jsx:196-198 | a screened sensitive path is never requested; every other path is requested once per occurrence |
| FetchPool.EnvSegmentIsSensitive | src/App.jsx:196 | a segment opening with `.env` in any case makes a path sensitive, whatever follows |
| FetchPool.DotlessNotSensitive | src/App.jsx:196 | a path without a dot is never sensitive |
| Worker.NumberOr | src/worker/repoWorker.js:10-12 | a numeric parameter that is missing or zero takes its default |
| Worker.Run | src/worker/repoWorker.js:5-173 | a missing owner or repo gives exactly "Missing owner or repo" with no request. Metadata and tree failures give their messages. A payload has `repo == owner/repo`, `filesAnalyzed == samples.length`, and snippets within the length limit |
| Worker.Assemble | src/worker/repoWorker.js:150-169 | once the tree is there, a positive concurrency always yields a payload and a negative one the "Invalid array length" error; the payload holds the pool's samples of the worker selection and the preview built from it |
| Worker.PreviewRoundTrip | src/worker/repoWorker.js:159-167 | when no field holds a newline, the preview splits back into its seven lines |
| Worker.FilesAnalyzedReadBack | src/worker/repoWorker.js:159-167 | the fourth preview line is the files label followed by digits that parse back to the number of files analyzed |
| Inline.ErrorText | src/App.jsx:248 | the shown error is the error's message, else the fixed fallback sentence |
| Inline.MetadataOf | src/App.jsx:212-225 | the payload metadata copies the repository fields and records the default branch, or `main` |
| Inline.Run | src/App.jsx:118-249 | the inline run requests metadata first and never fetches a sensitive path; its failures carry their messages; a resolved tree always leads to a payload |
| Inline.Collect | src/App.jsx:180-225 | the payload holds the samples of the inline selection in order, `filesAnalyzed` is their number, and every snippet is at most 1000 characters |
| Inline.SensitiveNeverFetched | src/App.jsx:196 | a selected sensitive path gets the placeholder snippet and no request |
| Handoff.Body | src/App.jsx:295-313 | there is no request without a payload, and a request carries a summary and no old-style fields |
| Handoff.HandoffAccepted | src/App.jsx:310-313 | the endpoint never refuses a hand-off for missing context, and it sees the preview (or "Repository: …") and the samples in order |
| Handoff.HandoffRendersSnippet | api/analyzeRepo.ts:74-79 | a handed-off sample is rendered as its heading and the first 800 characters of its snippet, or all of it when shorter |
| Api.Gate | api/analyzeRepo.ts:46-48 | OPTIONS gets an empty 200, any other method but POST gets 405, and only POST passes |
| AnalyzeRepo.SummaryOf | api/analyzeRepo.ts:54-57 | the summary is `repoSummary`, else "Repository: <repo>", and empty exactly when neither is set |
| AnalyzeRepo.FilesOf | api/analyzeRepo.ts:59-64 | the files are `selectedFiles` if non-empty, else `samples` if non-empty, else none |
| AnalyzeRepo.ContentOf | api/analyzeRepo.ts:77 | a file's text is its content, else its snippet, else "No content provided." |
| AnalyzeRepo.Block | api/analyzeRepo.ts:78 | a block is the `### path` heading followed by the first 800 characters of the file's text, or all of it when shorter |
| AnalyzeRepo.FormattedFilesEmptyIff | api/analyzeRepo.ts:74-80 | the no-files sentence appears exactly when there are no files |
| AnalyzeRepo.FormattedFilesAppend | api/analyzeRepo.ts:74-80 | the rendered files are the files' blocks joined by newlines: one file gives its block, and each further file adds a newline and its block |
| AnalyzeRepo.TokensOf | api/analyzeRepo.ts:127-132 | the token count is the first non-zero of total, completion and prompt tokens, and 0 exactly when there is none |
| JsText.Trim | api/analyzeRepo.ts:135 | the trimmed text is the part of the input between a leading and a trailing whitespace run: it occurs there, starts and ends with a non-space, and is empty exactly when the input is all whitespace |
| AnalyzeRepo.AiSummaryOf | api/analyzeRepo.ts:134-136 | the summary is the trimmed content, or the fallback sentence when that is empty or missing |
| AnalyzeRepo.FailureText | api/analyzeRepo.ts:154-160 | the error is prefixed, and carries the provider's message, else the error's, else "Unknown internal error." |
| AnalyzeRepo.PromptOf | api/analyzeRepo.ts:82-105 | the prompt carries the request's summary, or "No high-level summary provided." when there is none, and the rendered files of the request; the files section is the no-files sentence exactly when no file was sent |
| AnalyzeRepo.Handle | api/analyzeRepo.ts:40-165 | the status is 400 exactly for a POST with neither summary nor files; an accepted POST answers with the model's trimmed summary, token count and model name, or fails with 500 and the failure text of what the call threw |
| AnalyzeRepo.SummaryIsEnough | api/analyzeRepo.ts:66-71 | a request with a summary or an old-style `repo` is never refused for missing context |
| AskRevo.SampleBlock | api/askRevo.ts:31 | a sample renders as a `### path` heading followed by the first 600 characters of its snippet (all of it when shorter), or by `undefined` when it has none |
| AskRevo.FilesSectionEmptyIff | api/askRevo.ts:31 | the files section reads "No files" exactly when the samples are missing or empty |
| AskRevo.FilesSectionAppend | api/askRevo.ts:31 | the files section is the samples' blocks joined by newlines: one sample gives its block, and each further sample adds a newline and its block |
| AskRevo.AnswerOf | api/askRevo.ts:46 | the answer is the content, else "No answer generated." |
| AskRevo.ErrorOf | api/askRevo.ts:50 | the error text is the error's message, else "Internal error" |
| AskRevo.PromptOf | api/askRevo.ts:23-32 | an accepted request's prompt carries its question, the summary as a template literal renders it, and the files section of its samples, which is "No files" exactly when no sample was sent |
| AskRevo.Handle | api/askRevo.ts:9-52 | OPTIONS gets 200 and other non-POST methods 405; the status is 400 exactly for a POST without a question, or with neither a summary nor samples; an accepted POST answers with the model's content (or "No answer generated."), or fails with 500 and the thrown error's message |
| AskRevo.EmptySamplesAccepted | api/askRevo.ts:19-21 | an empty sample array counts as context |
| ContentScript.GetRepoInfo | public/content.js:15-19 | a parsed owner and repo are non-empty, slash-free, and the path's first two segments |
| ContentScript.RepoInfoOfPath | public/content.js:15-18 | any path made of two non-empty segments followed by nothing or a further `/…` parses to exactly those two |
| ContentScript.Classify | public/content.js:302-308 | a path is a pull request page exactly when `/pull/<digit>` occurs in it, and otherwise a repository home exactly when it has two non-empty segments |
| ContentScript.RepoHomeNamesRepo | public/content.js:274-275 | on a repository home page, the owner and repo that are read make up the whole path |
| ContentScript.PullTestComesFirst | public/content.js:302-305 | `/pull/7` passes both tests and is handled as a pull request |
| ContentScript.OnUrlChange | public/content.js:294-309 | a URL check does nothing exactly when the address is unchanged, and otherwise records it and sets up for the new page's route |
| ContentScript.UrlChangeOnce | public/content.js:294-319 | checking the same address twice acts once, and the start-up check with the last address cleared always acts |
| ContentScript.Closest | public/content.js:209-216 | the chosen snap height is nearest the current height, and the earliest of equally near ones |
| ContentScript.CurrentHeight | public/content.js:212 | a zero measured height falls back to the start height |
| ContentScript.FrameSrc | public/content.js:230-234 | the frame gets `?owner=…&repo=…` exactly when the path names a repository |

## Left out

- Fetching, JSON parsing, request headers, the GitHub token and
  `AbortController`: responses are oracle values. A response body that fails to
  parse as JSON is not modelled.
- Worker lifecycle, message posting, `startTransition`, `requestIdleCallback`,
  the 20 ms yields and the choice between worker and inline run: scheduling,
  not data.
- FetchPool.FetchWithConcurrency: the pool runs as one sequential worker. In
  the source each worker takes the next index and starts its fetch in the same
  synchronous step, so requests are issued in index order as modelled; only
  their completions interleave, and each result goes to its own slot, so the
  outcome does not depend on that order.
- Worker.Run: the catch-all `err?.message || String(err)` is modelled as the
  rejected request's message; an empty message, which would print the error's
  `String` form, is not distinguished.
- Worker.Run: `Number(...)` coercion of string or non-integer parameters is not
  modelled. The parameters are integers, and a non-integer worker count (which
  would also throw) cannot occur.
- Inline.PreviewLines: a field that is JSON `null` prints `null` in the source.
  The model has only present or missing fields, and a missing field prints
  `undefined`.
- React state, JSX rendering, Markdown rendering, status texts, the AI summary
  banner and the DOM construction and `MutationObserver` wiring of the content
  script: UI.
- The handoff's response handling (status check, summary banner with latency
  and tokens): it only formats what the endpoint returns.
- Drag dampening, velocity, the close fraction and the rounding of viewport
  ratios in the content script: floating point and timing. `Closest` takes
  integer snap heights.
- The language-model calls, dotenv, CORS headers, the response `hint` text,
  logging and `latency.toFixed(2)`: foreign calls and floating point. The
  fixed instruction text of the prompts is not carried; only their variable
  parts are.
- A request body that is not an object (which makes the endpoints throw) is
  not modelled.
- `toLowerCase` and the `/i` flag are ASCII-only. JavaScript strings are
  UTF-16, while Dafny strings here are sequences of code points, so
  `slice` lengths agree only for text within the Basic Multilingual Plane.
- Redaction.RedactSecretAssignment: the rest of the text after the value is
  stated as the scan resumed at that position. That the scan of a suffix equals
  the scan resumed mid-text is not proved.

=== FILE: analyzerepo.dfy ===
/**
 * The repository analysis endpoint. It accepts both the current request shape
 * (`repoSummary`, `selectedFiles`) and the older one (`repo`, `samples`), turns
 * whichever it gets into a summary line and a list of files, refuses a request with
 * neither, renders the files into the prompt with each file's text cut to 800
 * characters, and reports the model's trimmed answer and a token count.
 */
module AnalyzeRepo {
  import opened Wrappers
  import opened JsText
  import opened Api

  /** A file of the request; every field may be missing. */
  datatype RepoFile = RepoFile(path: Option<string>, content: Option<string>, snippet: Option<string>)

  /** The request body. */
  datatype Request = Request(
    repoSummary: Option<string>,
    selectedFiles: Option<seq<RepoFile>>,
    repo: Option<string>,
    samples: Option<seq<RepoFile>>)

  /** The variable parts of the prompt: the summary line and the rendered files. The
      instructions around them are fixed text. */
  datatype Prompt = Prompt(summary: string, files: string)

  /** A successful answer. */
  datatype Analysis = Analysis(summary: string, tokens: int, model: string)

  const Model: string := "llama-3.1-8b-instant"
  const MissingContext: string := "Missing repository context \U{2014} please provide repoSummary or selectedFiles."
  const NoContent: string := "No content provided."
  const NoFiles: string := "No files were provided for analysis."
  const NoSummary: string := "No high-level summary provided."
  const NoAiSummary: string := "\U{26A0}\U{FE0F} No AI summary generated."
  const UnknownError: string := "Unknown internal error."
  const FailurePrefix: string := "AI service failure: "

  /** The longest file text the prompt carries. */
  const ContentLimit: int := 800

  /** `body.repoSummary || (body.repo ? "Repository: " + body.repo : "") || ""`. */
  function SummaryOf(body: Request): (r: string)
    ensures Truthy(body.repoSummary) ==> r == body.repoSummary.value
    ensures !Truthy(body.repoSummary) && Truthy(body.repo) ==> r == "Repository: " + body.repo.value
    ensures r == [] <==> !Truthy(body.repoSummary) && !Truthy(body.repo)
  {
    OrElse(body.repoSummary, if Truthy(body.repo) then "Repository: " + body.repo.value else "")
  }

  /** An array field that is present and non-empty. */
  predicate NonEmpty(files: Option<seq<RepoFile>>) {
    files.Some? && files.value != []
  }

  /** `selectedFiles` if non-empty, else `samples` if non-empty, else nothing. */
  function FilesOf(body: Request): (r: seq<RepoFile>)
    ensures NonEmpty(body.selectedFiles) ==> r == body.selectedFiles.value
    ensures !NonEmpty(body.selectedFiles) && NonEmpty(body.samples) ==> r == body.samples.value
    ensures r == [] <==> !NonEmpty(body.selectedFiles) && !NonEmpty(body.samples)
  {
    if NonEmpty(body.selectedFiles) then body.selectedFiles.value
    else if NonEmpty(body.samples) then body.samples.value
    else []
  }

  /** The text of a file: its content, else its snippet, else the placeholder. */
  function ContentOf(f: RepoFile): (r: string)
    ensures r != []
    ensures Truthy(f.content) ==> r == f.content.value
    ensures !Truthy(f.content) && Truthy(f.snippet) ==> r == f.snippet.value
    ensures !Truthy(f.content) && !Truthy(f.snippet) ==> r == NoContent
  {
    OrElse(f.content, OrElse(f.snippet, NoContent))
  }

  /** A file's block: a blank line, a `### path` heading and at most 800 characters of its
      text. */
  function Block(f: RepoFile): (r: string)
    ensures var head := "\n### " + Interpolate(f.path) + "\n";
      && |head| <= |r| <= |head| + ContentLimit
      && r[..|head|] == head
      && IsPrefixOf(r[|head|..], ContentOf(f))
    ensures var head := "\n### " + Interpolate(f.path) + "\n";
      var text := ContentOf(f);
      r == head + text[..if |text| < ContentLimit then |text| else ContentLimit]
  {
    var head := "\n### " + Interpolate(f.path) + "\n";
    var text := Slice0(ContentOf(f), ContentLimit);
    var r := head + text;
    assert r[|head|..] == text;
    r
  }

  /** `a` is where `b` starts. */
  predicate IsPrefixOf(a: string, b: string) {
    |a| <= |b| && b[..|a|] == a
  }

  function Blocks(files: seq<RepoFile>): (r: seq<string>)
    ensures |r| == |files|
    ensures forall i :: 0 <= i < |files| ==> r[i] == Block(files[i])
  {
    seq(|files|, i requires 0 <= i < |files| => Block(files[i]))
  }

  /** The rendered files: the blocks joined by newlines, or the no-files sentence. */
  function FormattedFiles(files: seq<RepoFile>): (r: string)
  {
    var joined := Join(Blocks(files), "\n");
    if joined != [] then joined else NoFiles
  }

  /** The rendered files are built block by block: one file is its block, and each further
      file adds a newline and its block. */
  lemma FormattedFilesAppend(files: seq<RepoFile>, f: RepoFile)
    ensures FormattedFiles([f]) == Block(f)
    ensures files != [] ==> FormattedFiles(files + [f]) == FormattedFiles(files) + "\n" + Block(f)
  {
    assert Blocks([f]) == [Block(f)];
    if files != [] {
      var blocks := Blocks(files);
      assert Blocks(files + [f]) == blocks + [Block(f)];
      JoinSnoc(blocks, Block(f), "\n");
      JoinStartsWithHead(blocks, "\n");
      assert Join(blocks, "\n") != [];
    }
  }

  /** The no-files sentence appears exactly when there are no files: a rendered file
      always starts the text with a newline, which the sentence does not. */
  lemma FormattedFilesEmptyIff(files: seq<RepoFile>)
    ensures FormattedFiles(files) == NoFiles <==> files == []
    ensures files != [] ==> |FormattedFiles(files)| > 5 && FormattedFiles(files)[..5] == "\n### "
  {
    if files != [] {
      var blocks := Blocks(files);
      JoinStartsWithHead(blocks, "\n");
      var joined := Join(blocks, "\n");
      assert joined[..5] == blocks[0][..5];
      assert joined[0] == '\n' != NoFiles[0];
    }
  }

  /** `usage.total_tokens || usage.completion_tokens || usage.prompt_tokens || 0`. */
  function TokensOf(usage: Option<Usage>): (r: int)
    ensures usage.None? ==> r == 0
    ensures usage.Some? ==> var u := usage.value;
      && (NumberTruthy(u.totalTokens) ==> r == u.totalTokens.value)
      && (!NumberTruthy(u.totalTokens) && NumberTruthy(u.completionTokens) ==> r == u.completionTokens.value)
      && (!NumberTruthy(u.totalTokens) && !NumberTruthy(u.completionTokens) && NumberTruthy(u.promptTokens) ==> r == u.promptTokens.value)
    ensures r == 0 <==> usage.None? || (!NumberTruthy(usage.value.totalTokens) && !NumberTruthy(usage.value.completionTokens) && !NumberTruthy(usage.value.promptTokens))
  {
    match usage
    case None => 0
    case Some(u) =>
      if NumberTruthy(u.totalTokens) then u.totalTokens.value
      else if NumberTruthy(u.completionTokens) then u.completionTokens.value
      else if NumberTruthy(u.promptTokens) then u.promptTokens.value
      else 0
  }

  /** A counter that is present and not zero. */
  predicate NumberTruthy(n: Option<int>) {
    n.Some? && n.value != 0
  }

  /** `content?.trim() || "⚠️ No AI summary generated."`. */
  function AiSummaryOf(content: Option<string>): (r: string)
    ensures r != []
    ensures r != NoAiSummary ==> content.Some? && r == Trim(content.value)
    ensures content.Some? && Trim(content.value) != [] ==> r == Trim(content.value)
    ensures content.None? || Trim(content.value) == [] ==> r == NoAiSummary
  {
    if content.Some? && Trim(content.value) != [] then Trim(content.value) else NoAiSummary
  }

  /** The error text of a failed call: the provider's message, else the error's, else a
      fixed sentence, after the failure prefix. */
  function FailureText(e: CallError): (r: string)
    ensures |r| > |FailurePrefix| && r[..|FailurePrefix|] == FailurePrefix
    ensures Truthy(e.responseMessage) ==> r[|FailurePrefix|..] == e.responseMessage.value
    ensures !Truthy(e.responseMessage) && Truthy(e.message) ==> r[|FailurePrefix|..] == e.message.value
    ensures !Truthy(e.responseMessage) && !Truthy(e.message) ==> r[|FailurePrefix|..] == UnknownError
  {
    var m := OrElse(e.responseMessage, OrElse(e.message, UnknownError));
    assert (FailurePrefix + m)[|FailurePrefix|..] == m;
    FailurePrefix + m
  }

  /** The prompt a request leads to. */
  function PromptOf(body: Request): (p: Prompt)
    ensures p.summary != []
    ensures p.files == NoFiles <==> FilesOf(body) == []
    ensures SummaryOf(body) != [] ==> p.summary == SummaryOf(body)
    ensures SummaryOf(body) == [] ==> p.summary == NoSummary
    ensures p.files == FormattedFiles(FilesOf(body))
  {
    FormattedFilesEmptyIff(FilesOf(body));
    Prompt(if SummaryOf(body) != [] then SummaryOf(body) else NoSummary, FormattedFiles(FilesOf(body)))
  }

  /** The handler: the method gate, the context check, the prompt, the call and the
      answer or the failure. */
  function Handle(httpMethod: string, body: Request, llm: Prompt -> Completion): (r: Reply<Analysis>)
    ensures httpMethod == "OPTIONS" ==> r == Preflight
    ensures httpMethod != "OPTIONS" && httpMethod != "POST" ==> r == Rejected(405, MethodNotAllowed)
    ensures StatusOf(r) == 400 <==> httpMethod == "POST" && SummaryOf(body) == [] && FilesOf(body) == []
    ensures r.Answered? ==> r.value.model == Model && r.value.summary != []
    ensures httpMethod == "POST" && (SummaryOf(body) != [] || FilesOf(body) != []) ==>
      match llm(PromptOf(body))
      case Threw(e) => r == Rejected(500, FailureText(e))
      case Completed(content, usage) => r == Answered(Analysis(AiSummaryOf(content), TokensOf(usage), Model))
  {
    match Gate(httpMethod)
    case Some(early) => early
    case None =>
      if SummaryOf(body) == [] && FilesOf(body) == [] then Rejected(400, MissingContext)
      else match llm(PromptOf(body))
        case Threw(e) => Rejected(500, FailureText(e))
        case Completed(content, usage) => Answered(Analysis(AiSummaryOf(content), TokensOf(usage), Model))
  }

  /** A request with a summary or the old `repo` field is never refused for missing
      context, whatever its files. */
  lemma SummaryIsEnough(body: Request, llm: Prompt -> Completion)
    requires Truthy(body.repoSummary) || Truthy(body.repo)
    ensures StatusOf(Handle("POST", body, llm)) != 400
  {
  }
}

=== FILE: api.dfy ===
/**
 * What the two serverless handlers share: the method gate every request passes
 * first, the shape of their replies, and the language-model call, which is an
 * oracle here: a function from the prompt to what the call returned or threw.
 */
module Api {
  import opened Wrappers

  /** A handler's reply: the empty answer to a preflight request, an error with its
      status and message, or a successful answer. */
  datatype Reply<T> = Preflight | Rejected(status: nat, error: string) | Answered(value: T)

  /** The HTTP status a reply is sent with. */
  function StatusOf<T>(r: Reply<T>): (status: nat)
    ensures r.Rejected? ==> status == r.status
    ensures !r.Rejected? ==> status == 200
  {
    match r
    case Preflight => 200
    case Rejected(status, _) => status
    case Answered(_) => 200
  }

  const MethodNotAllowed: string := "Method not allowed"

  /** The method gate: `OPTIONS` is answered at once with an empty 200, any other method
      but `POST` with 405; `None` lets a `POST` through. */
  function Gate<T>(httpMethod: string): (r: Option<Reply<T>>)
    ensures r.None? <==> httpMethod == "POST"
    ensures httpMethod == "OPTIONS" ==> r == Some(Preflight)
    ensures httpMethod != "OPTIONS" && httpMethod != "POST" ==> r == Some(Rejected(405, MethodNotAllowed))
  {
    if httpMethod == "OPTIONS" then Some(Preflight)
    else if httpMethod != "POST" then Some(Rejected(405, MethodNotAllowed))
    else None
  }

  /** The usage counters of a completion; a counter the response lacks is `None`. */
  datatype Usage = Usage(totalTokens: Option<int>, completionTokens: Option<int>, promptTokens: Option<int>)

  /** The error a failed call throws: the provider's `response.data.error.message` and the
      error's own `message`, either of which may be missing. */
  datatype CallError = CallError(responseMessage: Option<string>, message: Option<string>)

  /** What the language-model call came back with: the first choice's content and the
      usage, or the error it threw. */
  datatype Completion = Threw(error: CallError) | Completed(content: Option<string>, usage: Option<Usage>)
}

=== FILE: askrevo.dfy ===
/**
 * The question endpoint: a question about a repository, answered from the summary
 * and the sampled files the client sends along. It refuses a request without a
 * question or without any context, renders each sample with at most 600 characters
 * of its snippet, and falls back to a fixed sentence when the model says nothing.
 */
module AskRevo {
  import opened Wrappers
  import opened JsText
  import opened Api

  /** A sample of the request; both fields may be missing. */
  datatype AskSample = AskSample(path: Option<string>, snippet: Option<string>)

  /** The request body. An array is truthy even when empty, so `samples` only needs to be
      present to count as context. */
  datatype Request = Request(summary: Option<string>, samples: Option<seq<AskSample>>, question: Option<string>)

  /** The variable parts of the context and the question message. */
  datatype Prompt = Prompt(summary: string, files: string, question: string)

  const MissingInput: string := "Missing question or context."
  const NoFilesText: string := "No files"
  const NoAnswer: string := "No answer generated."
  const InternalError: string := "Internal error"

  /** The longest snippet text the context carries. */
  const SnippetLimit: int := 600

  /** `!question || (!summary && !samples)`. */
  predicate Refused(body: Request) {
    !Truthy(body.question) || (!Truthy(body.summary) && body.samples.None?)
  }

  /** A sample's block: a `### path` heading and at most 600 characters of its snippet; a
      missing snippet prints as `undefined`. */
  function SampleBlock(f: AskSample): (r: string)
    ensures var head := "### " + Interpolate(f.path) + "\n";
      && |head| <= |r| <= |head| + (if f.snippet.Some? then SnippetLimit else 9)
      && r[..|head|] == head
      && (f.snippet.Some? ==> |r| - |head| <= |f.snippet.value| && r[|head|..] == f.snippet.value[..|r| - |head|])
    ensures var head := "### " + Interpolate(f.path) + "\n";
      && (f.snippet.Some? ==> |r| - |head| == if |f.snippet.value| < SnippetLimit then |f.snippet.value| else SnippetLimit)
      && (f.snippet.None? ==> r == head + "undefined")
  {
    var head := "### " + Interpolate(f.path) + "\n";
    var text := match f.snippet
      case Some(s) => Slice0(s, SnippetLimit)
      case None => "undefined";
    var r := head + text;
    assert r[|head|..] == text;
    r
  }

  function SampleBlocks(samples: seq<AskSample>): (r: seq<string>)
    ensures |r| == |samples|
    ensures forall i :: 0 <= i < |samples| ==> r[i] == SampleBlock(samples[i])
  {
    seq(|samples|, i requires 0 <= i < |samples| => SampleBlock(samples[i]))
  }

  /** `samples?.map(…).join("\n") || "No files"`. */
  function FilesSection(samples: Option<seq<AskSample>>): string {
    match samples
    case None => NoFilesText
    case Some(xs) =>
      var joined := Join(SampleBlocks(xs), "\n");
      if joined != [] then joined else NoFilesText
  }

  /** The files section reads "No files" exactly when no sample was sent, and otherwise
      opens with the first sample's heading. */
  lemma FilesSectionEmptyIff(samples: Option<seq<AskSample>>)
    ensures FilesSection(samples) == NoFilesText <==> samples.None? || samples.value == []
    ensures samples.Some? && samples.value != [] ==>
      var head := "### " + Interpolate(samples.value[0].path) + "\n";
      |head| <= |FilesSection(samples)| && FilesSection(samples)[..|head|] == head
  {
    if samples.Some? && samples.value != [] {
      var blocks := SampleBlocks(samples.value);
      JoinStartsWithHead(blocks, "\n");
      var joined := Join(blocks, "\n");
      assert joined[0] == '#' != NoFilesText[0];
      var head := "### " + Interpolate(samples.value[0].path) + "\n";
      assert joined[..|head|] == blocks[0][..|head|];
    }
  }

  /** The files section is built sample by sample: one sample is its block, and each
      further sample adds a newline and its block. */
  lemma FilesSectionAppend(samples: seq<AskSample>, f: AskSample)
    ensures FilesSection(Some([f])) == SampleBlock(f)
    ensures samples != [] ==> FilesSection(Some(samples + [f])) == FilesSection(Some(samples)) + "\n" + SampleBlock(f)
  {
    assert SampleBlocks([f]) == [SampleBlock(f)];
    if samples != [] {
      var blocks := SampleBlocks(samples);
      assert SampleBlocks(samples + [f]) == blocks + [SampleBlock(f)];
      JoinSnoc(blocks, SampleBlock(f), "\n");
      JoinStartsWithHead(blocks, "\n");
      assert Join(blocks, "\n") != [];
    }
  }

  /** `content || "No answer generated."`. */
  function AnswerOf(content: Option<string>): (r: string)
    ensures r != []
    ensures Truthy(content) ==> r == content.value
    ensures !Truthy(content) ==> r == NoAnswer
  {
    OrElse(content, NoAnswer)
  }

  /** `err.message || "Internal error"`. */
  function ErrorOf(e: CallError): (r: string)
    ensures r != []
    ensures Truthy(e.message) ==> r == e.message.value
    ensures !Truthy(e.message) ==> r == InternalError
  {
    OrElse(e.message, InternalError)
  }

  /** The prompt of an accepted request: the summary as interpolated, the files section
      and the question. */
  function PromptOf(body: Request): (p: Prompt)
    requires !Refused(body)
    ensures p.question == body.question.value != []
    ensures p.files == NoFilesText <==> body.samples.None? || body.samples.value == []
    ensures p.summary == Interpolate(body.summary)
    ensures p.files == FilesSection(body.samples)
  {
    FilesSectionEmptyIff(body.samples);
    Prompt(Interpolate(body.summary), FilesSection(body.samples), body.question.value)
  }

  /** The handler. */
  function Handle(httpMethod: string, body: Request, llm: Prompt -> Completion): (r: Reply<string>)
    ensures httpMethod == "OPTIONS" ==> r == Preflight
    ensures httpMethod != "OPTIONS" && httpMethod != "POST" ==> r == Rejected(405, MethodNotAllowed)
    ensures StatusOf(r) == 400 <==> httpMethod == "POST" && Refused(body)
    ensures r.Answered? ==> r.value != []
    ensures httpMethod == "POST" && !Refused(body) ==>
      match llm(PromptOf(body))
      case Threw(e) => r == Rejected(500, ErrorOf(e))
      case Completed(content, _) => r == Answered(AnswerOf(content))
  {
    match Gate(httpMethod)
    case Some(early) => early
    case None =>
      if Refused(body) then Rejected(400, MissingInput)
      else match llm(PromptOf(body))
        case Threw(e) => Rejected(500, ErrorOf(e))
        case Completed(content, _) => Answered(AnswerOf(content))
  }

  /** An empty sample array is context enough: a question with `samples: []` and no
      summary is answered, and the model is told there are no files. */
  lemma EmptySamplesAccepted(question: string, llm: Prompt -> Completion)
    requires question != []
    ensures var body := Request(None, Some([]), Some(question));
      StatusOf(Handle("POST", body, llm)) != 400 && PromptOf(body).files == NoFilesText
  {
    FilesSectionEmptyIff(Some([]));
  }
}

=== FILE: contentscript.dfy ===
/**
 * The browser extension's content script, reduced to its decisions: which
 * repository a GitHub path names, which kind of page it is, whether a URL change
 * needs handling, which snap height a released drawer settles on, and the address
 * the drawer's frame loads.
 */
module ContentScript {
  import opened Wrappers
  import opened JsText

  /** The owner and name of a repository. */
  datatype RepoInfo = RepoInfo(owner: string, repo: string)

  /** Not a path separator. */
  predicate NotSlash(c: char) {
    c != '/'
  }

  /** No separator in `s`. */
  predicate SlashFree(s: string) {
    forall i :: 0 <= i < |s| ==> s[i] != '/'
  }

  /** `pathname.match(/^\/([^/]+)\/([^/]+)/)`: the first two segments, when both are
      there and non-empty; deeper segments are ignored. */
  function GetRepoInfo(path: string): (r: Option<RepoInfo>)
    ensures r.Some? ==>
      var o, n := r.value.owner, r.value.repo;
      && o != [] && n != [] && SlashFree(o) && SlashFree(n)
      && |o| + |n| + 2 <= |path|
      && path[..|o| + |n| + 2] == "/" + o + "/" + n
      && (|o| + |n| + 2 == |path| || path[|o| + |n| + 2] == '/')
  {
    if |path| == 0 || path[0] != '/' then None
    else
      var a := RunEnd(path, 1, NotSlash);
      RunEndSpan(path, 1, NotSlash);
      if a == 1 || a == |path| then None
      else
        var b := RunEnd(path, a + 1, NotSlash);
        RunEndSpan(path, a + 1, NotSlash);
        if b == a + 1 then None
        else
          var o, n := path[1..a], path[a + 1..b];
          assert path[..|o| + |n| + 2] == "/" + o + "/" + n;
          Some(RepoInfo(o, n))
  }

  /** Conversely, a path that opens with two non-empty segments names exactly those two,
      whatever follows them. */
  lemma {:induction false} RepoInfoOfPath(owner: string, repo: string, rest: string)
    requires owner != [] && repo != [] && SlashFree(owner) && SlashFree(repo)
    requires rest == [] || rest[0] == '/'
    ensures GetRepoInfo("/" + owner + "/" + repo + rest) == Some(RepoInfo(owner, repo))
  {
    var path := "/" + owner + "/" + repo + rest;
    var a, b := |owner| + 1, |owner| + 2 + |repo|;
    assert path[a] == '/';
    assert forall k :: 1 <= k < a ==> path[k] == owner[k - 1];
    assert forall k :: a + 1 <= k < b ==> path[k] == repo[k - a - 1];
    RunEndAt(path, 1, a, NotSlash);
    RunEndAt(path, a + 1, b, NotSlash);
    assert path[1..a] == owner;
    assert path[a + 1..b] == repo;
  }

  /** `/\/pull\/\d+/` matches at position `i`. */
  predicate PullAt(path: string, i: nat) {
    i + 7 <= |path| && path[i..i + 6] == "/pull/" && '0' <= path[i + 6] <= '9'
  }

  /** `/\/pull\/\d+/.test(pathname)`: anywhere in the path. */
  predicate IsPullPage(path: string) {
    exists i :: 0 <= i <= |path| && PullAt(path, i)
  }

  /** The path is `/a/b` with the one inner separator at `k`. */
  predicate SplitsAt(path: string, k: nat) {
    && 1 < k < |path| - 1
    && path[0] == '/' && path[k] == '/'
    && (forall j :: 1 <= j < |path| && j != k ==> path[j] != '/')
  }

  /** `/^\/[^/]+\/[^/]+$/.test(pathname)`: exactly two non-empty segments. */
  predicate IsRepoHome(path: string) {
    exists k :: 0 <= k < |path| && SplitsAt(path, k)
  }

  /** The kinds of page the script acts on. */
  datatype Route = PullRequest | RepoHome | OtherPage

  /** The pull-request test comes first. */
  function Classify(path: string): (r: Route)
    ensures r == PullRequest <==> IsPullPage(path)
    ensures r == RepoHome <==> !IsPullPage(path) && IsRepoHome(path)
  {
    if IsPullPage(path) then PullRequest
    else if IsRepoHome(path) then RepoHome
    else OtherPage
  }

  /** On a repository home page the whole path is the owner and the name that
      `GetRepoInfo` reads. */
  lemma {:induction false} RepoHomeNamesRepo(path: string)
    requires IsRepoHome(path)
    ensures GetRepoInfo(path).Some?
    ensures |GetRepoInfo(path).value.owner| + |GetRepoInfo(path).value.repo| + 2 == |path|
  {
    var k :| 0 <= k < |path| && SplitsAt(path, k);
    var owner, repo := path[1..k], path[k + 1..];
    assert path == "/" + owner + "/" + repo + [];
    RepoInfoOfPath(owner, repo, []);
  }

  /** The order of the tests matters: `/pull/7` has exactly two segments, yet it is
      handled as a pull request. */
  lemma PullTestComesFirst()
    ensures IsRepoHome("/pull/7") && Classify("/pull/7") == PullRequest
  {
    assert SplitsAt("/pull/7", 5);
    assert PullAt("/pull/7", 0);
  }

  /** What a URL check does: nothing, or reset and set up for the new page's route. */
  datatype Effect = Unchanged | Reset(route: Route)

  /** `onUrlChange` with the last seen address `last`: the new address and the effect. */
  function OnUrlChange(last: string, href: string, pathname: string): (r: (string, Effect))
    ensures r.0 == href
    ensures r.1 == Unchanged <==> href == last
    ensures r.1.Reset? ==> r.1.route == Classify(pathname)
  {
    if href == last then (last, Unchanged) else (href, Reset(Classify(pathname)))
  }

  /** A second check of the same address does nothing, and the start-up check, made with
      the last address cleared, always acts on a non-empty address. */
  lemma UrlChangeOnce(last: string, href: string, pathname: string)
    ensures OnUrlChange(OnUrlChange(last, href, pathname).0, href, pathname).1 == Unchanged
    ensures href != [] ==> OnUrlChange("", href, pathname).1 == Reset(Classify(pathname))
  {
  }

  /** `|x|`. */
  function Abs(x: int): (r: nat)
    ensures r == x || r == -x
  {
    if x < 0 then -x else x
  }

  /** `rect.height || startHeight`. */
  function CurrentHeight(measured: int, startHeight: int): (h: int)
    ensures measured != 0 ==> h == measured
    ensures measured == 0 ==> h == startHeight
  {
    if measured != 0 then measured else startHeight
  }

  /** The snap point a released drawer settles on: the one nearest the current height,
      the earliest of several equally near ones, since only a strictly smaller
      difference replaces the current choice. */
  method Closest(height: int, snaps: seq<int>) returns (closest: int, index: nat)
    requires snaps != []
    ensures index < |snaps| && closest == snaps[index]
    ensures forall j :: 0 <= j < |snaps| ==> Abs(height - closest) <= Abs(height - snaps[j])
    ensures forall j :: 0 <= j < index ==> Abs(height - snaps[j]) > Abs(height - closest)
  {
    closest, index := snaps[0], 0;
    var minDiff := Abs(height - snaps[0]);
    var i := 1;
    while i < |snaps|
      invariant 1 <= i <= |snaps| && index < i
      invariant closest == snaps[index] && minDiff == Abs(height - closest)
      invariant forall j :: 0 <= j < i ==> minDiff <= Abs(height - snaps[j])
      invariant forall j :: 0 <= j < index ==> Abs(height - snaps[j]) > minDiff
    {
      var diff := Abs(height - snaps[i]);
      if diff < minDiff {
        minDiff, closest, index := diff, snaps[i], i;
      }
      i := i + 1;
    }
  }

  /** The frame's address: the page's address with the owner and name as query
      parameters when the path names a repository, and no address otherwise. */
  function FrameSrc(base: string, path: string): (r: Option<string>)
    ensures r.Some? <==> GetRepoInfo(path).Some?
    ensures r.Some? ==> var info := GetRepoInfo(path).value;
      r.value == base + "?owner=" + info.owner + "&repo=" + info.repo
  {
    match GetRepoInfo(path)
    case Some(info) => Some(base + "?owner=" + info.owner + "&repo=" + info.repo)
    case None => None
  }
}

=== FILE: fetchpool.dfy ===
/**
 * Fetching the selected files. The worker runs a pool of cursor-driven workers
 * that write each file's result into the slot of its index and then drop the
 * failures; the inline path fetches the selection in chunks of five and screens
 * out sensitive paths before fetching. Both keep the selection's order, and both
 * come down to one per-path rule, `FetchOne`, gathered over the selection.
 */
module FetchPool {
  import opened Wrappers
  import opened JsText
  import opened Redaction
  import opened GitHub

  /** One fetched file as the payload carries it. */
  datatype Sample = Sample(path: string, snippet: string)

  /** How one path is fetched: from which host and branch, the snippet length, and
      whether sensitive paths are screened out first. */
  datatype Fetcher = Fetcher(host: Host, branch: string, maxLength: int, screen: bool)

  /** The snippet a screened sensitive path gets instead of its content. */
  const SensitiveText: string := "[REDACTED - sensitive file]"

  /** The message of the `RangeError` that `new Array(n)` throws for a negative `n`. */
  const InvalidArrayLength: string := "Invalid array length"

  /** The file words of the sensitive-path pattern. Its `env.local` alternative comes
      after `env` and the pattern has no end anchor, so `env` alone decides. */
  const SensitiveWords: seq<string> := ["env", "secrets", "credentials"]

  /** A segment starts at `i` with a dot followed by one of the sensitive words, in any
      case. */
  predicate SensitiveAt(path: string, i: nat) {
    && i < |path|
    && (i == 0 || path[i - 1] == '/')
    && path[i] == '.'
    && exists k :: 0 <= k < |SensitiveWords| && KeyAt(path, i + 1, SensitiveWords[k])
  }

  /** `/(^|\/)\.(env|env.local|secrets|credentials)/i.test(path)`. */
  predicate IsSensitive(path: string) {
    exists i :: 0 <= i <= |path| && SensitiveAt(path, i)
  }

  /** A path without a dot is never sensitive. */
  lemma DotlessNotSensitive(path: string)
    requires '.' !in path
    ensures !IsSensitive(path)
  {
    forall i | 0 <= i <= |path| ensures !SensitiveAt(path, i) {
      if i < |path| {
        assert path[i] in path;
      }
    }
  }

  /** A segment that opens with `.env`, in any case, makes the path sensitive wherever it
      sits and whatever follows it: `.envrc` and `config/.ENV.production` both qualify. */
  lemma {:induction false} EnvSegmentIsSensitive(path: string, i: nat)
    requires i + 4 <= |path| && (i == 0 || path[i - 1] == '/') && path[i] == '.'
    requires Lower(path[i + 1..i + 4]) == "env"
    ensures IsSensitive(path)
  {
    assert KeyAt(path, i + 1, SensitiveWords[0]);
    assert SensitiveAt(path, i);
  }

  /** The result of one path: a screened sensitive path gets the placeholder without a
      request; otherwise an ok response gives the redacted text cut to the snippet length,
      and anything else gives nothing. */
  function FetchOne(f: Fetcher, path: string): (r: Option<Sample>)
    ensures r.Some? ==> r.value.path == path
    ensures r.None? ==> Requested(f, path) && !f.host.raw(f.branch, path).Ok?
    ensures r.Some? && !Requested(f, path) ==> r.value.snippet == SensitiveText
    ensures r.Some? && Requested(f, path) ==>
      && f.host.raw(f.branch, path).Ok?
      && var text := Redact(f.host.raw(f.branch, path).body);
      && |r.value.snippet| <= |text| && r.value.snippet == text[..|r.value.snippet|]
    ensures r.Some? && Requested(f, path) ==> r.value.snippet == Snippet(f.host.raw(f.branch, path).body, f.maxLength)
    ensures r.Some? && f.maxLength >= 0 && (!f.screen || f.maxLength >= |SensitiveText|) ==>
      |r.value.snippet| <= f.maxLength
  {
    if f.screen && IsSensitive(path) then Some(Sample(path, SensitiveText))
    else match f.host.raw(f.branch, path)
      case Ok(text) => Some(Sample(path, Snippet(text, f.maxLength)))
      case _ => None
  }

  /** Whether fetching `path` sends a request. */
  predicate Requested(f: Fetcher, path: string) {
    !(f.screen && IsSensitive(path))
  }

  /** The samples of `paths` in order, failures dropped. */
  function Gather(f: Fetcher, paths: seq<string>): (r: seq<Sample>)
    ensures |r| <= |paths|
    ensures forall i :: 0 <= i < |r| ==> Some(r[i]) == FetchOne(f, r[i].path)
  {
    if paths == [] then []
    else match FetchOne(f, paths[0])
      case Some(s) => [s] + Gather(f, paths[1..])
      case None => Gather(f, paths[1..])
  }

  /** The requests gathering `paths` sends, in order. */
  function RequestsOf(f: Fetcher, paths: seq<string>): (r: seq<Request>)
    ensures |r| <= |paths|
    ensures forall i :: 0 <= i < |r| ==> r[i].RawReq? && r[i].branch == f.branch && Requested(f, r[i].path)
  {
    if paths == [] then []
    else (if Requested(f, paths[0]) then [RawReq(f.branch, paths[0])] else []) + RequestsOf(f, paths[1..])
  }

  /** The paths of some samples. */
  function PathsOf(samples: seq<Sample>): (r: seq<string>)
    ensures |r| == |samples|
    ensures forall i :: 0 <= i < |r| ==> r[i] == samples[i].path
  {
    seq(|samples|, i requires 0 <= i < |samples| => samples[i].path)
  }

  lemma {:induction false} GatherAppend(f: Fetcher, a: seq<string>, b: seq<string>)
    ensures Gather(f, a + b) == Gather(f, a) + Gather(f, b)
  {
    if a == [] {
      assert a + b == b;
    } else {
      assert (a + b)[1..] == a[1..] + b;
      GatherAppend(f, a[1..], b);
    }
  }

  lemma {:induction false} RequestsAppend(f: Fetcher, a: seq<string>, b: seq<string>)
    ensures RequestsOf(f, a + b) == RequestsOf(f, a) + RequestsOf(f, b)
  {
    if a == [] {
      assert a + b == b;
    } else {
      assert (a + b)[1..] == a[1..] + b;
      RequestsAppend(f, a[1..], b);
    }
  }

  /** The samples keep the order of the selection: their paths are a subsequence of it. */
  lemma {:induction false} GatherKeepsOrder(f: Fetcher, paths: seq<string>)
    ensures IsSubsequence(PathsOf(Gather(f, paths)), paths)
  {
    if paths != [] {
      GatherKeepsOrder(f, paths[1..]);
      var rest := Gather(f, paths[1..]);
      match FetchOne(f, paths[0])
      case Some(s) =>
        assert PathsOf([s] + rest)[0] == paths[0];
        assert PathsOf([s] + rest)[1..] == PathsOf(rest);
      case None =>
    }
  }

  /** Every path whose fetch succeeds, or that is screened out as sensitive, has a sample:
      only failed fetches are dropped. */
  lemma {:induction false} GatherKeepsSuccesses(f: Fetcher, paths: seq<string>, p: string)
    requires p in paths && FetchOne(f, p).Some?
    ensures FetchOne(f, p).value in Gather(f, paths)
  {
    if paths[0] != p {
      GatherKeepsSuccesses(f, paths[1..], p);
    }
  }

  /** A screened sensitive path is never requested, and every other path is requested
      exactly as often as it occurs in the selection. */
  lemma {:induction false} RequestsScreen(f: Fetcher, paths: seq<string>, p: string)
    ensures Requested(f, p) ==> multiset(RequestsOf(f, paths))[RawReq(f.branch, p)] == multiset(paths)[p]
    ensures !Requested(f, p) ==> RawReq(f.branch, p) !in RequestsOf(f, paths)
  {
    if paths != [] {
      RequestsScreen(f, paths[1..], p);
      assert paths == [paths[0]] + paths[1..];
    }
  }

  /** `results.filter(Boolean)`: the present results in slot order. */
  function Present(results: seq<Option<Sample>>): (r: seq<Sample>)
    ensures |r| <= |results|
  {
    if results == [] then []
    else (if results[0].Some? then [results[0].value] else []) + Present(results[1..])
  }

  /** The slot array holding each path's result at the path's index. */
  function Slots(f: Fetcher, paths: seq<string>): (r: seq<Option<Sample>>)
    ensures |r| == |paths|
    ensures forall i :: 0 <= i < |paths| ==> r[i] == FetchOne(f, paths[i])
  {
    seq(|paths|, i requires 0 <= i < |paths| => FetchOne(f, paths[i]))
  }

  /** Dropping the empty slots of the slot array gives the gathered samples. */
  lemma {:induction false} PresentSlots(f: Fetcher, paths: seq<string>)
    ensures Present(Slots(f, paths)) == Gather(f, paths)
  {
    if paths != [] {
      assert Slots(f, paths)[1..] == Slots(f, paths[1..]);
      PresentSlots(f, paths[1..]);
    }
  }

  /** `fetchWithConcurrency(paths, limit)`: `min(limit, n)` workers share a cursor, each
      taking the next index, fetching it and writing its result to that slot; the empty
      slots are then dropped. The workers' interleaving does not change which slot gets
      which result, so the pool runs here as one sequential worker. A negative worker
      count is the `RangeError` of `new Array`, and with no worker nothing is fetched. */
  method FetchWithConcurrency(f: Fetcher, paths: seq<string>, limit: int)
    returns (samples: Result<seq<Sample>, string>, requests: seq<Request>)
    requires !f.screen
    ensures var workers := if limit < |paths| then limit else |paths|;
      && (workers < 0 ==> samples == Failure(InvalidArrayLength) && requests == [])
      && (workers == 0 ==> samples == Success([]) && requests == [])
      && (workers > 0 ==>
            && samples == Success(Gather(f, paths))
            && |requests| == |paths|
            && (forall i :: 0 <= i < |paths| ==> requests[i] == RawReq(f.branch, paths[i])))
  {
    var workers := if limit < |paths| then limit else |paths|;
    if workers < 0 {
      return Failure(InvalidArrayLength), [];
    }
    if workers == 0 {
      return Success([]), [];
    }
    var results: seq<Option<Sample>> := seq(|paths|, _ => None);
    var cursor := 0;
    requests := [];
    while cursor < |paths|
      invariant 0 <= cursor <= |paths| && |results| == |paths|
      invariant forall j :: 0 <= j < cursor ==> results[j] == FetchOne(f, paths[j])
      invariant |requests| == cursor
      invariant forall j :: 0 <= j < cursor ==> requests[j] == RawReq(f.branch, paths[j])
    {
      var idx := cursor;
      cursor := cursor + 1;
      requests := requests + [RawReq(f.branch, paths[idx])];
      results := results[idx := FetchOne(f, paths[idx])];
    }
    assert results == Slots(f, paths);
    PresentSlots(f, paths);
    samples := Success(Present(results));
  }

  /** The concatenation of a list of chunks. */
  function Flatten<T>(chunks: seq<seq<T>>): (r: seq<T>)
    ensures chunks == [] ==> r == []
  {
    if chunks == [] then [] else Flatten(chunks[..|chunks| - 1]) + chunks[|chunks| - 1]
  }

  /** The chunking loop: consecutive slices of `size`, the last one possibly shorter. */
  method Chunk<T>(xs: seq<T>, size: nat) returns (chunks: seq<seq<T>>)
    requires size > 0
    ensures Flatten(chunks) == xs
    ensures forall i :: 0 <= i < |chunks| ==> 0 < |chunks[i]| <= size
    ensures forall i :: 0 <= i < |chunks| - 1 ==> |chunks[i]| == size
  {
    chunks := [];
    var i := 0;
    while i < |xs|
      invariant 0 <= i <= |xs|
      invariant Flatten(chunks) == xs[..i]
      invariant forall k :: 0 <= k < |chunks| ==> 0 < |chunks[k]| <= size
      invariant forall k :: 0 <= k < |chunks| - 1 ==> |chunks[k]| == size
      invariant i < |xs| && chunks != [] ==> |chunks[|chunks| - 1]| == size
    {
      var end := if i + size < |xs| then i + size else |xs|;
      var next := chunks + [xs[i..end]];
      assert next[..|chunks|] == chunks;
      assert xs[..end] == xs[..i] + xs[i..end];
      chunks := next;
      i := end;
    }
    assert xs[..|xs|] == xs;
  }

  /** The size of the inline path's fetch chunks. */
  const ChunkSize: nat := 5

  /** The inline path's fetch loop: the selection in chunks of five, each chunk's results
      in chunk order with failures dropped, appended chunk after chunk. */
  method FetchInChunks(f: Fetcher, paths: seq<string>)
    returns (samples: seq<Sample>, requests: seq<Request>)
    ensures samples == Gather(f, paths)
    ensures requests == RequestsOf(f, paths)
  {
    var chunks := Chunk(paths, ChunkSize);
    samples, requests := [], [];
    var k := 0;
    while k < |chunks|
      invariant 0 <= k <= |chunks|
      invariant samples == Gather(f, Flatten(chunks[..k]))
      invariant requests == RequestsOf(f, Flatten(chunks[..k]))
    {
      assert chunks[..k + 1][..k] == chunks[..k];
      GatherAppend(f, Flatten(chunks[..k]), chunks[k]);
      RequestsAppend(f, Flatten(chunks[..k]), chunks[k]);
      samples := samples + Gather(f, chunks[k]);
      requests := requests + RequestsOf(f, chunks[k]);
      k := k + 1;
    }
    assert chunks[..|chunks|] == chunks;
  }
}

=== FILE: github.dfy ===
/**
 * The GitHub side of the pipeline, with the network taken out. Every request the
 * pipeline makes is answered by a `Host`: a record of total functions from the
 * request's parameters to a response, so a run is a pure function of its host.
 * A response either failed before any status came back (the fetch rejected), came
 * back with a non-ok status, or came back ok with a parsed body.
 */
module GitHub {
  import opened Wrappers
  import opened JsText

  /** One HTTP exchange as the pipeline sees it. */
  datatype Response<T> = Failed(message: string) | NotOk(status: nat) | Ok(body: T)

  /** The fields of the repository metadata the pipeline reads; a field the body lacks is
      `None`. */
  datatype Meta = Meta(
    defaultBranch: Option<string>,
    fullName: Option<string>,
    description: Option<string>,
    language: Option<string>,
    stars: Option<nat>,
    forks: Option<nat>)

  /** One entry of a recursive tree listing. */
  datatype TreeEntry = TreeEntry(kind: string, path: string)

  /** A tree response body: its `tree` array, when it has one. */
  datatype TreeData = TreeData(tree: Option<seq<TreeEntry>>)

  /** The `commit.tree` field of a commit response body: absent, an object with an
      optional `sha`, or a plain string. */
  datatype CommitTree = NoTree | TreeObject(sha: Option<string>) | TreeString(text: string)

  /** The answers of the network: repository metadata, a recursive tree listing by branch
      name or sha, a commit by branch name, and the raw text of a file on a branch. */
  datatype Host = Host(
    meta: Response<Meta>,
    tree: string -> Response<TreeData>,
    commit: string -> Response<CommitTree>,
    raw: (string, string) -> Response<string>)

  /** A request the pipeline makes, in the order it makes them. */
  datatype Request = MetaReq | TreeReq(treeRef: string) | CommitReq(commitRef: string) | RawReq(branch: string, path: string)

  /** What a stage produced together with the requests it made. */
  datatype Step<T> = Step(outcome: Result<T, string>, requests: seq<Request>)

  /** The text a template literal gives an object with no usable `sha`. */
  const ObjectText: string := "[object Object]"

  /** `meta.default_branch || "main"`. */
  function DefaultBranch(meta: Meta): (b: string)
    ensures b != []
    ensures Truthy(meta.defaultBranch) ==> b == meta.defaultBranch.value
    ensures !Truthy(meta.defaultBranch) ==> b == "main"
  {
    OrElse(meta.defaultBranch, "main")
  }

  /** `commit.tree.sha || commit.tree`, as the reference interpolated into the second tree
      request, or `None` when that value is falsy and no request is made. */
  function TreeRef(c: CommitTree): (r: Option<string>)
    ensures r.Some? ==> r.value != []
    ensures r.None? <==> c.NoTree? || c == TreeString([])
    ensures c.TreeObject? && Truthy(c.sha) ==> r == Some(c.sha.value)
    ensures c.TreeObject? && !Truthy(c.sha) ==> r == Some(ObjectText)
    ensures c.TreeString? && c.text != [] ==> r == Some(c.text)
  {
    match c
    case NoTree => None
    case TreeObject(sha) => if Truthy(sha) then Some(sha.value) else Some(ObjectText)
    case TreeString(text) => if text != [] then Some(text) else None
  }

  /** The error message of a metadata response with a non-ok status. */
  function MetaFailed(status: nat): (m: string)
    ensures |m| > 31 && m[..30] == "GitHub metadata fetch failed (" && m[|m| - 1] == ')'
    ensures forall i :: 30 <= i < |m| - 1 ==> '0' <= m[i] <= '9'
    ensures ParseNat(m[30..|m| - 1]) == status
  {
    var digits := NatToString(status);
    var m := "GitHub metadata fetch failed (" + digits + ")";
    assert m[30..|m| - 1] == digits;
    ParseNatToString(status);
    m
  }

  /** The tree array of an ok response that has one. */
  predicate HasTree(r: Response<TreeData>) {
    r.Ok? && r.body.tree.Some?
  }

  /** Tree resolution: the branch's tree when that request comes back ok with a `tree`
      (a failure of that request is swallowed); otherwise the commit's tree reference and
      a second tree request. A failed commit or second tree request ends the run with its
      own message; anything else that leaves no tree ends it with `missing`. */
  function ResolveTree(host: Host, branch: string, missing: string): (r: Step<seq<TreeEntry>>)
    ensures 1 <= |r.requests| <= 3 && r.requests[0] == TreeReq(branch)
    ensures forall i :: 0 <= i < |r.requests| ==> r.requests[i].TreeReq? || r.requests[i].CommitReq?
    ensures r.outcome.Failure? && r.outcome.error != missing ==>
      exists i :: 0 <= i < |r.requests| && RequestFailedWith(host, r.requests[i], r.outcome.error)
  {
    var first := host.tree(branch);
    if HasTree(first) then Step(Success(first.body.tree.value), [TreeReq(branch)])
    else
      var asked := [TreeReq(branch), CommitReq(branch)];
      match host.commit(branch)
      case Failed(m) =>
        assert RequestFailedWith(host, asked[1], m);
        Step(Failure(m), asked)
      case NotOk(_) => Step(Failure(missing), asked)
      case Ok(c) =>
        match TreeRef(c)
        case None => Step(Failure(missing), asked)
        case Some(ref) =>
          var second := host.tree(ref);
          var all := asked + [TreeReq(ref)];
          if second.Failed? then
            assert RequestFailedWith(host, all[2], second.message);
            Step(Failure(second.message), all)
          else if HasTree(second) then Step(Success(second.body.tree.value), all)
          else Step(Failure(missing), all)
  }

  /** The host answers request `q` with a rejected fetch carrying `m`. */
  predicate RequestFailedWith(host: Host, q: Request, m: string) {
    match q
    case MetaReq => host.meta == Failed(m)
    case TreeReq(ref) => host.tree(ref) == Failed(m)
    case CommitReq(ref) => host.commit(ref) == Failed(m)
    case RawReq(b, p) => host.raw(b, p) == Failed(m)
  }

  /** An ok branch tree is used as it is, and nothing else is asked. */
  lemma PrefersBranchTree(host: Host, branch: string, missing: string)
    requires HasTree(host.tree(branch))
    ensures ResolveTree(host, branch, missing)
      == Step(Success(host.tree(branch).body.tree.value), [TreeReq(branch)])
  {
  }

  /** Without a branch tree, the commit's tree reference is followed, and its tree is used
      when that request comes back ok with one. */
  lemma FallsBackToCommitTree(host: Host, branch: string, missing: string, c: CommitTree)
    requires !HasTree(host.tree(branch)) && host.commit(branch) == Ok(c) && TreeRef(c).Some?
    requires HasTree(host.tree(TreeRef(c).value))
    ensures ResolveTree(host, branch, missing).outcome
      == Success(host.tree(TreeRef(c).value).body.tree.value)
    ensures ResolveTree(host, branch, missing).requests
      == [TreeReq(branch), CommitReq(branch), TreeReq(TreeRef(c).value)]
  {
  }

  /** Every tree that resolution yields comes from an ok tree response for the branch or for
      the commit's tree reference: nothing is invented. */
  lemma ResolvedTreeIsFetched(host: Host, branch: string, missing: string)
    requires ResolveTree(host, branch, missing).outcome.Success?
    ensures var t := ResolveTree(host, branch, missing).outcome.value;
      host.tree(branch) == Ok(TreeData(Some(t)))
      || (host.commit(branch).Ok? && TreeRef(host.commit(branch).body).Some?
          && host.tree(TreeRef(host.commit(branch).body).value) == Ok(TreeData(Some(t))))
  {
  }

  /** When neither the branch nor the commit's tree reference gives a tree, and nothing
      rejects, the run ends with the `missing` message. */
  lemma MissingTreeFails(host: Host, branch: string, missing: string)
    requires !HasTree(host.tree(branch)) && !host.commit(branch).Failed?
    requires host.commit(branch).Ok? && TreeRef(host.commit(branch).body).Some? ==>
      var second := host.tree(TreeRef(host.commit(branch).body).value);
      !HasTree(second) && !second.Failed?
    ensures ResolveTree(host, branch, missing).outcome == Failure(missing)
  {
  }

  /** An entry of kind `blob` with path `p` is in the listing. */
  predicate IsBlobPath(entries: seq<TreeEntry>, p: string) {
    exists i :: 0 <= i < |entries| && entries[i].kind == "blob" && entries[i].path == p
  }

  /** `tree.filter(f => f.type === "blob").map(f => f.path)`. */
  function Blobs(entries: seq<TreeEntry>): (r: seq<string>)
    ensures |r| <= |entries|
  {
    if entries == [] then []
    else (if entries[0].kind == "blob" then [entries[0].path] else []) + Blobs(entries[1..])
  }

  /** The blob paths are exactly the paths of the blob entries, listed in tree order. */
  lemma {:induction false} BlobsMembers(entries: seq<TreeEntry>)
    ensures forall p :: p in Blobs(entries) <==> IsBlobPath(entries, p)
  {
    if entries != [] {
      BlobsMembers(entries[1..]);
      forall p ensures IsBlobPath(entries, p) <==> (entries[0].kind == "blob" && entries[0].path == p) || IsBlobPath(entries[1..], p) {
        if IsBlobPath(entries, p) {
          var i :| 0 <= i < |entries| && entries[i].kind == "blob" && entries[i].path == p;
          if i > 0 {
            assert entries[1..][i - 1] == entries[i];
          }
        }
        if IsBlobPath(entries[1..], p) {
          var i :| 0 <= i < |entries[1..]| && entries[1..][i].kind == "blob" && entries[1..][i].path == p;
          assert entries[i + 1] == entries[1..][i];
        }
      }
    }
  }

  /** Listing the blobs of a concatenation lists each part's blobs in turn. */
  lemma {:induction false} BlobsAppend(a: seq<TreeEntry>, b: seq<TreeEntry>)
    ensures Blobs(a + b) == Blobs(a) + Blobs(b)
  {
    if a == [] {
      assert a + b == b;
    } else {
      var head := if a[0].kind == "blob" then [a[0].path] else [];
      assert (a + b)[0] == a[0];
      assert (a + b)[1..] == a[1..] + b;
      assert Blobs(a + b) == head + Blobs(a[1..] + b);
      BlobsAppend(a[1..], b);
      assert Blobs(a) == head + Blobs(a[1..]);
    }
  }
}

=== FILE: handoff.dfy ===
/**
 * The hand-off from the page to the analysis endpoint: once a payload is there,
 * its preview (or a one-line stand-in) and its samples are posted as the request
 * body. Together with the endpoint's own check, this shows that a hand-off is never
 * refused for missing context.
 */
module Handoff {
  import opened Wrappers
  import opened JsText
  import opened Api
  import opened FetchPool
  import AnalyzeRepo
  import Worker
  import Inline

  /** The two fields of a payload the hand-off reads, whichever pipeline built it. */
  datatype PayloadView = PayloadView(repo: string, samples: Option<seq<Sample>>)

  function WorkerView(p: Worker.Payload): PayloadView {
    PayloadView(p.repo, Some(p.samples))
  }

  function InlineView(p: Inline.Payload): PayloadView {
    PayloadView(p.repo, Some(p.samples))
  }

  /** A sample as a file of the analysis request: its path and its snippet, no content. */
  function AsFile(s: Sample): (f: AnalyzeRepo.RepoFile)
    ensures f.path == Some(s.path) && f.snippet == Some(s.snippet) && f.content.None?
  {
    AnalyzeRepo.RepoFile(Some(s.path), None, Some(s.snippet))
  }

  function AsFiles(samples: seq<Sample>): (r: seq<AnalyzeRepo.RepoFile>)
    ensures |r| == |samples|
    ensures forall i :: 0 <= i < |samples| ==> r[i] == AsFile(samples[i])
  {
    seq(|samples|, i requires 0 <= i < |samples| => AsFile(samples[i]))
  }

  /** `handleAIHandoff`: nothing without a payload; otherwise the request body with
      `repoSummary = preview || "Repository: " + repo` and `selectedFiles = samples || []`. */
  function Body(payload: Option<PayloadView>, preview: string): (r: Option<AnalyzeRepo.Request>)
    ensures r.None? <==> payload.None?
    ensures r.Some? ==> r.value.repo.None? && r.value.samples.None? && r.value.repoSummary.Some?
  {
    match payload
    case None => None
    case Some(p) =>
      var summary := if preview != "" then preview else "Repository: " + p.repo;
      var files := match p.samples
        case Some(xs) => AsFiles(xs)
        case None => [];
      Some(AnalyzeRepo.Request(Some(summary), Some(files), None, None))
  }

  /** The endpoint never refuses a hand-off for missing context: its summary is the
      preview or the stand-in line, both non-empty. The endpoint then sees the payload's
      samples as its files, in order, and the summary as sent. */
  lemma HandoffAccepted(payload: PayloadView, preview: string, llm: AnalyzeRepo.Prompt -> Completion)
    ensures var body := Body(Some(payload), preview).value;
      && StatusOf(AnalyzeRepo.Handle("POST", body, llm)) != 400
      && AnalyzeRepo.SummaryOf(body) == (if preview != "" then preview else "Repository: " + payload.repo)
      && AnalyzeRepo.FilesOf(body) == (if payload.samples.Some? then AsFiles(payload.samples.value) else [])
  {
    var body := Body(Some(payload), preview).value;
    assert body.repoSummary.value != [];
  }

  /** The endpoint renders a handed-off sample from its snippet: the text under the
      sample's heading is the start of the snippet, at most 800 characters of it. */
  lemma HandoffRendersSnippet(s: Sample)
    requires s.snippet != []
    ensures var head := "\n### " + s.path + "\n";
      var block := AnalyzeRepo.Block(AsFile(s));
      && |head| <= |block| <= |head| + AnalyzeRepo.ContentLimit
      && block[..|head|] == head
      && AnalyzeRepo.IsPrefixOf(block[|head|..], s.snippet)
      && block == head + s.snippet[..if |s.snippet| < AnalyzeRepo.ContentLimit then |s.snippet| else AnalyzeRepo.ContentLimit]
  {
  }
}

=== FILE: inline.dfy ===
/**
 * The page's own copy of the pipeline, used when no worker is available. It asks
 * the same questions of the host as the worker but selects with its own table and
 * fallback, fetches in chunks of five, screens sensitive paths out before fetching,
 * and builds a payload with a fixed detected type and a metadata record of its own.
 */
module Inline {
  import opened Wrappers
  import opened JsText
  import opened GitHub
  import opened Selection
  import opened FetchPool

  /** The metadata record of the inline payload; an absent field stays absent. */
  datatype Metadata = Metadata(
    name: Option<string>,
    description: Option<string>,
    stars: Option<nat>,
    forks: Option<nat>,
    language: Option<string>,
    branch: string)

  /** The inline payload. */
  datatype Payload = Payload(repo: string, detectedType: string, metadata: Metadata, filesAnalyzed: nat, samples: seq<Sample>)

  /** How an inline run ends: the error text it shows, or the payload and its preview. */
  datatype Outcome = Aborted(message: string) | Ready(payload: Payload, preview: string)

  const TreeMissing: string := "Could not retrieve repository tree."
  const AnalysisFailed: string := "Repository analysis failed. Check logs."
  const DetectedType: string := "Detected"

  /** The snippet length of the inline path. */
  const SnippetLength: int := 1000

  /** `err?.message || "Repository analysis failed. Check logs."`. */
  function ErrorText(message: string): (r: string)
    ensures r != []
    ensures message != [] ==> r == message
    ensures message == [] ==> r == AnalysisFailed
  {
    if message != [] then message else AnalysisFailed
  }

  /** The inline metadata record built from the repository metadata. */
  function MetadataOf(meta: Meta): (m: Metadata)
    ensures m.branch == DefaultBranch(meta) && m.branch != []
    ensures m.name == meta.fullName && m.description == meta.description && m.language == meta.language
    ensures m.stars == meta.stars && m.forks == meta.forks
  {
    Metadata(meta.fullName, meta.description, meta.stars, meta.forks, meta.language, DefaultBranch(meta))
  }

  /** The preview lines; absent values print as `undefined`. */
  function PreviewLines(p: Payload): (lines: seq<string>)
    ensures |lines| == 8
  {
    [ "\U{1F4E6} " + p.repo,
      "\U{1F9E0} Type: " + p.detectedType,
      "\U{2B50} Stars: " + InterpolateNat(p.metadata.stars) + " | \U{1F374} Forks: " + InterpolateNat(p.metadata.forks),
      "\U{1F5C2}\U{FE0F} Files analyzed: " + NatToString(p.filesAnalyzed),
      "Language: " + Interpolate(p.metadata.language),
      "Branch: " + p.metadata.branch,
      "",
      "\U{2705} Ready for AI Handoff" ]
  }

  /** The preview text. */
  function Preview(p: Payload): string {
    Join(PreviewLines(p), "\n")
  }

  /** The tree stage of an inline run. */
  function TreeOf(host: Host, meta: Meta): Step<seq<TreeEntry>> {
    ResolveTree(host, DefaultBranch(meta), TreeMissing)
  }

  /** How the inline path fetches on the repository described by `meta`. */
  function FetcherOf(host: Host, meta: Meta): (f: Fetcher)
    ensures f.screen && f.maxLength == SnippetLength
  {
    Fetcher(host, DefaultBranch(meta), SnippetLength, true)
  }

  /** `fetchRepoDataInline` for the repository `owner/repo`. */
  method Run(owner: string, repo: string, host: Host) returns (outcome: Outcome, requests: seq<Request>)
    ensures requests != [] && requests[0] == MetaReq
    ensures NoSensitiveRequest(requests)
    ensures host.meta.Failed? ==> outcome == Aborted(ErrorText(host.meta.message)) && requests == [MetaReq]
    ensures host.meta.NotOk? ==> outcome == Aborted(MetaFailed(host.meta.status)) && requests == [MetaReq]
    ensures host.meta.Ok? && TreeOf(host, host.meta.body).outcome.Failure? ==>
      outcome == Aborted(ErrorText(TreeOf(host, host.meta.body).outcome.error))
    ensures host.meta.Ok? && TreeOf(host, host.meta.body).outcome.Success? ==>
      && outcome.Ready?
      && var meta := host.meta.body;
      && var p := outcome.payload;
      && var selected := InlineSelect(Blobs(TreeOf(host, meta).outcome.value));
      && p.repo == owner + "/" + repo
      && p.detectedType == DetectedType
      && p.metadata == MetadataOf(meta)
      && p.filesAnalyzed == |p.samples|
      && p.samples == Gather(FetcherOf(host, meta), selected)
      && (forall i :: 0 <= i < |p.samples| ==> |p.samples[i].snippet| <= SnippetLength)
      && requests == [MetaReq] + TreeOf(host, meta).requests + RequestsOf(FetcherOf(host, meta), selected)
      && outcome.preview == Preview(p)
  {
    requests := [MetaReq];
    match host.meta {
      case Failed(m) =>
        outcome := Aborted(ErrorText(m));
      case NotOk(status) =>
        outcome := Aborted(MetaFailed(status));
      case Ok(meta) =>
        var tree := TreeOf(host, meta);
        requests := requests + tree.requests;
        if tree.outcome.Failure? {
          outcome := Aborted(ErrorText(tree.outcome.error));
          return;
        }
        var fetched;
        outcome, fetched := Collect(owner, repo, host, meta, tree.outcome.value);
        NoSensitiveAppend(requests, fetched);
        requests := requests + fetched;
    }
  }

  /** The part of a run after the tree is there: select, fetch in chunks and assemble. */
  method Collect(owner: string, repo: string, host: Host, meta: Meta, entries: seq<TreeEntry>)
    returns (outcome: Outcome, requests: seq<Request>)
    ensures NoSensitiveRequest(requests)
    ensures outcome.Ready?
    ensures var p := outcome.payload;
      && var selected := InlineSelect(Blobs(entries));
      && p.repo == owner + "/" + repo
      && p.detectedType == DetectedType
      && p.metadata == MetadataOf(meta)
      && p.filesAnalyzed == |p.samples|
      && p.samples == Gather(FetcherOf(host, meta), selected)
      && (forall i :: 0 <= i < |p.samples| ==> |p.samples[i].snippet| <= SnippetLength)
      && requests == RequestsOf(FetcherOf(host, meta), selected)
      && outcome.preview == Preview(p)
  {
    var finalFiles := InlineSelect(Blobs(entries));
    var fetcher := FetcherOf(host, meta);
    var samples;
    samples, requests := FetchInChunks(fetcher, finalFiles);
    forall i | 0 <= i < |samples| ensures |samples[i].snippet| <= SnippetLength {
      assert Some(samples[i]) == FetchOne(fetcher, samples[i].path);
    }
    var payload := Payload(owner + "/" + repo, DetectedType, MetadataOf(meta), |samples|, samples);
    outcome := Ready(payload, Preview(payload));
  }

  /** No request of `qs` fetches a sensitive path. */
  predicate NoSensitiveRequest(qs: seq<Request>) {
    forall i :: 0 <= i < |qs| ==> qs[i].RawReq? ==> !IsSensitive(qs[i].path)
  }

  lemma NoSensitiveAppend(a: seq<Request>, b: seq<Request>)
    requires NoSensitiveRequest(a) && NoSensitiveRequest(b)
    ensures NoSensitiveRequest(a + b)
  {
    forall i | 0 <= i < |a + b| && (a + b)[i].RawReq? ensures !IsSensitive((a + b)[i].path) {
      if i >= |a| {
        assert (a + b)[i] == b[i - |a|];
      }
    }
  }

  /** A sensitive path in the selection becomes a sample with the placeholder text, and
      no request is made for it. */
  lemma SensitiveNeverFetched(host: Host, meta: Meta, selected: seq<string>, p: string)
    requires p in selected && IsSensitive(p)
    ensures Sample(p, SensitiveText) in Gather(FetcherOf(host, meta), selected)
    ensures RawReq(DefaultBranch(meta), p) !in RequestsOf(FetcherOf(host, meta), selected)
  {
    GatherKeepsSuccesses(FetcherOf(host, meta), selected, p);
    RequestsScreen(FetcherOf(host, meta), selected, p);
  }
}

=== FILE: jstext.dfy ===
/**
 * The JavaScript string and array primitives the pipeline relies on, with the
 * semantics of the language rather than of Dafny: whitespace as `\s` and
 * `trim` see it, `slice(0, end)` with a possibly negative `end`, `includes`,
 * `join`/`split`, decimal rendering of counters, and truthiness of optional
 * text. Case folding is ASCII only.
 */
module JsText {
  import opened Wrappers

  /** The code points JavaScript counts as WhiteSpace or LineTerminator:
      the class `\s` of a regular expression and what `String.prototype.trim` strips. */
  predicate IsSpace(c: char) {
    || c == ' ' || c == '\t' || c == '\n' || c == '\r' || c == '\U{000B}' || c == '\U{000C}'
    || c == '\U{00A0}' || c == '\U{1680}' || ('\U{2000}' <= c <= '\U{200A}')
    || c == '\U{2028}' || c == '\U{2029}' || c == '\U{202F}' || c == '\U{205F}'
    || c == '\U{3000}' || c == '\U{FEFF}'
  }

  /** ASCII case folding: what `toLowerCase` and the `i` flag do to the letters that matter here. */
  function LowerChar(c: char): (r: char)
    ensures 'A' <= c <= 'Z' ==> 'a' <= r <= 'z'
    ensures !('A' <= c <= 'Z') ==> r == c
  {
    if 'A' <= c <= 'Z' then (c as int + 32) as char else c
  }

  function Lower(s: string): (r: string)
    ensures |r| == |s|
    ensures forall i :: 0 <= i < |s| ==> r[i] == LowerChar(s[i])
  {
    seq(|s|, i requires 0 <= i < |s| => LowerChar(s[i]))
  }

  lemma LowerAppend(a: string, b: string)
    ensures Lower(a + b) == Lower(a) + Lower(b)
  {
  }

  lemma LowerSlice(s: string, i: nat, j: nat)
    requires i <= j <= |s|
    ensures Lower(s[i..j]) == Lower(s)[i..j]
  {
  }

  /** `s.includes(pat)`: `pat` occurs in `s` as a contiguous substring. */
  predicate Contains(s: string, pat: string)
    decreases |s|
  {
    |pat| <= |s| && (s[..|pat|] == pat || Contains(s[1..], pat))
  }

  /** `pat` occurs in `s` starting at position `i`. */
  predicate OccursAt(s: string, pat: string, i: int) {
    0 <= i && i + |pat| <= |s| && s[i..i + |pat|] == pat
  }

  /** `Contains` is exactly substring occurrence. */
  lemma {:induction false} ContainsIff(s: string, pat: string)
    ensures Contains(s, pat) <==> exists i :: OccursAt(s, pat, i)
    decreases |s|
  {
    if |pat| > |s| {
    } else if s[..|pat|] == pat {
      assert OccursAt(s, pat, 0);
    } else {
      var t := s[1..];
      ContainsIff(t, pat);
      if exists i :: OccursAt(s, pat, i) {
        var i :| OccursAt(s, pat, i);
        assert i != 0;
        assert t[i - 1..i - 1 + |pat|] == s[i..i + |pat|];
        assert OccursAt(t, pat, i - 1);
      }
      if Contains(t, pat) {
        var i :| OccursAt(t, pat, i);
        assert s[i + 1..i + 1 + |pat|] == t[i..i + |pat|];
        assert OccursAt(s, pat, i + 1);
      }
    }
  }

  /** `s` ends with `suffix`. */
  predicate EndsWith(s: string, suffix: string) {
    |suffix| <= |s| && s[|s| - |suffix|..] == suffix
  }

  /** Where a greedy run of elements satisfying `p`, starting at `i`, stops: how far a
      character class such as `\s*` reaches from position `i`. */
  function RunEnd<T>(s: seq<T>, i: nat, p: T -> bool): (j: nat)
    requires i <= |s|
    ensures i <= j <= |s|
    decreases |s| - i
  {
    if i < |s| && p(s[i]) then RunEnd(s, i + 1, p) else i
  }

  /** The run is made of elements satisfying `p` and stops at the end or at one that
      does not. */
  lemma {:induction false} RunEndSpan<T>(s: seq<T>, i: nat, p: T -> bool)
    requires i <= |s|
    ensures var j := RunEnd(s, i, p);
      (forall k :: i <= k < j ==> p(s[k])) && (j < |s| ==> !p(s[j]))
    decreases |s| - i
  {
    if i < |s| && p(s[i]) {
      RunEndSpan(s, i + 1, p);
    }
  }

  /** Conversely, a run of `p` from `i` to `j` that stops at the end or at an element
      outside `p` is exactly what `RunEnd` finds. */
  lemma {:induction false} RunEndAt<T>(s: seq<T>, i: nat, j: nat, p: T -> bool)
    requires i <= j <= |s|
    requires forall k :: i <= k < j ==> p(s[k])
    requires j == |s| || !p(s[j])
    ensures RunEnd(s, i, p) == j
    decreases j - i
  {
    if i < j {
      RunEndAt(s, i + 1, j, p);
    }
  }

  /** The length of the longest suffix of `s` made of whitespace. */
  function TrailingSpaces(s: string): (n: nat)
    ensures n <= |s|
    ensures forall i :: |s| - n <= i < |s| ==> IsSpace(s[i])
    ensures n < |s| ==> !IsSpace(s[|s| - n - 1])
  {
    if s != [] && IsSpace(s[|s| - 1]) then 1 + TrailingSpaces(s[..|s| - 1]) else 0
  }

  /** `String.prototype.trim`. */
  function Trim(s: string): (r: string)
    ensures r == [] <==> forall i :: 0 <= i < |s| ==> IsSpace(s[i])
    ensures r != [] ==> !IsSpace(r[0]) && !IsSpace(r[|r| - 1])
    ensures exists a :: OccursAt(s, r, a)
    ensures exists a :: && OccursAt(s, r, a)
                        && (forall i :: 0 <= i < a ==> IsSpace(s[i]))
                        && (forall i :: a + |r| <= i < |s| ==> IsSpace(s[i]))
  {
    var a := RunEnd(s, 0, IsSpace);
    var t := s[a..];
    TrimBounds(s, a, t);
    t[..|t| - TrailingSpaces(t)]
  }

  lemma TrimBounds(s: string, a: nat, t: string)
    requires a == RunEnd(s, 0, IsSpace) && t == s[a..]
    ensures var r := t[..|t| - TrailingSpaces(t)];
      && (r == [] <==> forall i :: 0 <= i < |s| ==> IsSpace(s[i]))
      && (r != [] ==> !IsSpace(r[0]) && !IsSpace(r[|r| - 1]))
      && OccursAt(s, r, a)
      && (forall i :: 0 <= i < a ==> IsSpace(s[i]))
      && (forall i :: a + |r| <= i < |s| ==> IsSpace(s[i]))
  {
    RunEndSpan(s, 0, IsSpace);
    var b := TrailingSpaces(t);
    var r := t[..|t| - b];
    if r == [] {
      assert t == [];
    } else {
      assert r[|r| - 1] == t[|t| - b - 1];
    }
  }

  /** Where `s.slice(0, end)` stops, for a string or array of length `len`:
      a negative `end` counts back from the end. */
  function SliceEnd(len: nat, end: int): (r: nat)
    ensures r <= len
    ensures end >= 0 ==> r == if end < len then end else len
    ensures end < 0 ==> r == if len + end < 0 then 0 else len + end
  {
    if end < 0 then (if len + end < 0 then 0 else len + end)
    else if end < len then end
    else len
  }

  /** `s.slice(0, end)` on a string or an array. */
  function Slice0<T>(s: seq<T>, end: int): (r: seq<T>)
    ensures |r| <= |s| && r == s[..|r|]
    ensures end >= 0 ==> |r| <= end
    ensures end >= 0 && end <= |s| ==> |r| == end
    ensures end >= |s| ==> r == s
    ensures |r| == SliceEnd(|s|, end)
  {
    s[..SliceEnd(|s|, end)]
  }

  /** `xs.join(sep)`. */
  function Join(xs: seq<string>, sep: string): (r: string)
    ensures xs == [] ==> r == []
    ensures |xs| == 1 ==> r == xs[0]
  {
    if xs == [] then []
    else if |xs| == 1 then xs[0]
    else xs[0] + sep + Join(xs[1..], sep)
  }

  /** A join opens with its first element. */
  lemma {:induction false} JoinStartsWithHead(xs: seq<string>, sep: string)
    requires xs != []
    ensures |xs[0]| <= |Join(xs, sep)| && Join(xs, sep)[..|xs[0]|] == xs[0]
  {
    if |xs| > 1 {
      assert Join(xs, sep) == xs[0] + (sep + Join(xs[1..], sep));
    }
  }

  /** Joining one more element appends the separator and that element. */
  lemma {:induction false} JoinSnoc(xs: seq<string>, x: string, sep: string)
    requires xs != []
    ensures Join(xs + [x], sep) == Join(xs, sep) + sep + x
  {
    var ys := xs + [x];
    if |xs| == 1 {
      assert ys[1..] == [x];
    } else {
      assert ys[0] == xs[0] && ys[1..] == xs[1..] + [x];
      JoinSnoc(xs[1..], x, sep);
      assert Join(ys, sep) == xs[0] + sep + (Join(xs[1..], sep) + sep + x);
    }
  }

  /** The first position of `c` in `s`. */
  function IndexOf(s: string, c: char): (i: nat)
    requires c in s
    ensures i < |s| && s[i] == c && c !in s[..i]
  {
    if s[0] == c then 0 else 1 + IndexOf(s[1..], c)
  }

  /** `s.split(c)` for a one-character separator. */
  function Split(s: string, c: char): (r: seq<string>)
    ensures |r| >= 1
    ensures forall i :: 0 <= i < |r| ==> c !in r[i]
    decreases |s|
  {
    if c !in s then [s]
    else
      var i := IndexOf(s, c);
      [s[..i]] + Split(s[i + 1..], c)
  }

  /** Splitting a join on a separator no element contains gives back the elements. */
  lemma {:induction false} SplitJoin(xs: seq<string>, c: char)
    requires |xs| >= 1
    requires forall i :: 0 <= i < |xs| ==> c !in xs[i]
    ensures Split(Join(xs, [c]), c) == xs
  {
    if |xs| > 1 {
      var rest := Join(xs[1..], [c]);
      assert Join(xs, [c]) == xs[0] + [c] + rest;
      SplitAtFirst(xs[0], c, rest);
      SplitJoin(xs[1..], c);
      assert xs == [xs[0]] + xs[1..];
    }
  }

  /** The first separator ends the first piece. */
  lemma SplitAtFirst(a: string, c: char, rest: string)
    requires c !in a
    ensures Split(a + [c] + rest, c) == [a] + Split(rest, c)
  {
    var s := a + [c] + rest;
    assert s[|a|] == c;
    assert s[..|a|] == a;
    assert IndexOf(s, c) == |a|;
    assert s[|a| + 1..] == rest;
  }

  /** The digit character for `d`. */
  function DigitChar(d: nat): (c: char)
    requires d < 10
    ensures '0' <= c <= '9'
  {
    "0123456789"[d]
  }

  /** The decimal text of a counter, as a template literal renders it. */
  function NatToString(n: nat): (r: string)
    ensures r != []
    ensures forall i :: 0 <= i < |r| ==> '0' <= r[i] <= '9'
  {
    if n < 10 then [DigitChar(n)] else NatToString(n / 10) + [DigitChar(n % 10)]
  }

  /** The value of a string of decimal digits. */
  function ParseNat(s: string): nat
    requires forall i :: 0 <= i < |s| ==> '0' <= s[i] <= '9'
  {
    if s == [] then 0 else ParseNat(s[..|s| - 1]) * 10 + (s[|s| - 1] as int - '0' as int)
  }

  /** Rendering a counter loses nothing: reading the digits back gives the number. */
  lemma {:induction false} ParseNatToString(n: nat)
    ensures ParseNat(NatToString(n)) == n
  {
    if n >= 10 {
      var s := NatToString(n);
      assert s[..|s| - 1] == NatToString(n / 10);
      ParseNatToString(n / 10);
    }
  }

  /** JavaScript truthiness of an optional string: present and non-empty. */
  predicate Truthy(s: Option<string>) {
    s.Some? && s.value != ""
  }

  /** `s || fallback` for optional text. */
  function OrElse(s: Option<string>, fallback: string): (r: string)
    ensures Truthy(s) ==> r == s.value
    ensures !Truthy(s) ==> r == fallback
  {
    if Truthy(s) then s.value else fallback
  }

  /** How a template literal renders an optional string: a missing value prints `undefined`. */
  function Interpolate(s: Option<string>): string {
    match s
    case Some(v) => v
    case None => "undefined"
  }

  /** How a template literal renders an optional counter. */
  function InterpolateNat(n: Option<nat>): string {
    match n
    case Some(v) => NatToString(v)
    case None => "undefined"
  }

  /** `xs.filter(p)`. */
  function Filter<T(!new)>(xs: seq<T>, p: T -> bool): (r: seq<T>)
    ensures |r| <= |xs|
    ensures forall x :: x in r <==> x in xs && p(x)
    ensures IsSubsequence(r, xs)
  {
    if xs == [] then []
    else if p(xs[0]) then
      var rest := Filter(xs[1..], p);
      assert ([xs[0]] + rest)[1..] == rest;
      [xs[0]] + rest
    else Filter(xs[1..], p)
  }

  lemma {:induction false} FilterAppend<T(!new)>(a: seq<T>, b: seq<T>, p: T -> bool)
    ensures Filter(a + b, p) == Filter(a, p) + Filter(b, p)
  {
    if a == [] {
      assert a + b == b;
    } else {
      assert (a + b)[1..] == a[1..] + b;
      FilterAppend(a[1..], b, p);
    }
  }

  /** `a` is `b` with some elements left out, order kept. */
  predicate IsSubsequence<T(==)>(a: seq<T>, b: seq<T>)
    decreases |b|
  {
    a == [] || (b != [] && ((a[0] == b[0] && IsSubsequence(a[1..], b[1..])) || IsSubsequence(a, b[1..])))
  }

  lemma {:induction false} SubsequenceMembers<T(!new)>(a: seq<T>, b: seq<T>)
    requires IsSubsequence(a, b)
    ensures forall x :: x in a ==> x in b
    decreases |b|
  {
    if a != [] {
      if a[0] == b[0] && IsSubsequence(a[1..], b[1..]) {
        SubsequenceMembers(a[1..], b[1..]);
        assert forall x :: x in a ==> x == a[0] || x in a[1..];
      } else {
        SubsequenceMembers(a, b[1..]);
      }
    }
  }

  lemma {:induction false} PrefixIsSubsequence<T>(s: seq<T>, k: nat)
    requires k <= |s|
    ensures IsSubsequence(s[..k], s)
    decreases |s|
  {
    if k > 0 {
      assert s[..k][1..] == s[1..][..k - 1];
      PrefixIsSubsequence(s[1..], k - 1);
    }
  }

  lemma {:induction false} SubsequenceTransitive<T>(a: seq<T>, b: seq<T>, c: seq<T>)
    requires IsSubsequence(a, b) && IsSubsequence(b, c)
    ensures IsSubsequence(a, c)
    decreases |c|
  {
    if a != [] {
      assert b != [] && c != [];
      if b[0] == c[0] && IsSubsequence(b[1..], c[1..]) {
        if a[0] == b[0] && IsSubsequence(a[1..], b[1..]) {
          SubsequenceTransitive(a[1..], b[1..], c[1..]);
        } else {
          SubsequenceTransitive(a, b[1..], c[1..]);
        }
      } else {
        SubsequenceTransitive(a, b, c[1..]);
      }
    }
  }

  /** No element occurs twice. */
  predicate NoDuplicates<T(==)>(xs: seq<T>) {
    forall i, j :: 0 <= i < j < |xs| ==> xs[i] != xs[j]
  }
}

=== FILE: ranking.dfy ===
/**
 * Ranking: score every blob path, keep the positive ones and sort them by
 * descending score with `Array.prototype.sort`, which is stable, so equal
 * scores keep their tree order. The sort is modelled by a functional
 * insertion sort, and `StableSortUnique` shows that any stable descending
 * sort yields the same sequence, so the engine's algorithm does not matter.
 */
module Ranking {
  import opened Scoring

  /** `{ path, score }` as the pipeline builds it. */
  datatype Scored = Scored(path: string, score: int)

  /** Non-increasing score order. */
  predicate SortedDescending(xs: seq<Scored>) {
    forall i, j :: 0 <= i < j < |xs| ==> xs[i].score >= xs[j].score
  }

  /** The entries of `xs` whose score is `k`, in their order in `xs`. */
  function WithScore(xs: seq<Scored>, k: int): seq<Scored> {
    if xs == [] then []
    else (if xs[0].score == k then [xs[0]] else []) + WithScore(xs[1..], k)
  }

  lemma {:induction false} WithScoreAppend(a: seq<Scored>, b: seq<Scored>, k: int)
    ensures WithScore(a + b, k) == WithScore(a, k) + WithScore(b, k)
  {
    if a == [] {
      assert a + b == b;
    } else {
      var head := if a[0].score == k then [a[0]] else [];
      assert (a + b)[0] == a[0];
      assert (a + b)[1..] == a[1..] + b;
      assert WithScore(a + b, k) == head + WithScore(a[1..] + b, k);
      WithScoreAppend(a[1..], b, k);
      assert WithScore(a, k) == head + WithScore(a[1..], k);
    }
  }

  /** `x` goes after every entry that scores strictly more and before the rest. */
  function Insert(x: Scored, ys: seq<Scored>): (r: seq<Scored>)
    ensures multiset(r) == multiset(ys) + multiset{x}
  {
    if ys == [] || ys[0].score <= x.score then [x] + ys
    else
      var tail := Insert(x, ys[1..]);
      assert ys == [ys[0]] + ys[1..];
      [ys[0]] + tail
  }

  /** Stable sort by descending score. */
  function SortDescending(xs: seq<Scored>): (r: seq<Scored>)
    ensures multiset(r) == multiset(xs)
    ensures SortedDescending(r)
  {
    if xs == [] then []
    else
      assert xs == [xs[0]] + xs[1..];
      InsertSorted(xs[0], SortDescending(xs[1..]));
      Insert(xs[0], SortDescending(xs[1..]))
  }

  /** Every entry scores at most `bound`. */
  predicate AllAtMost(xs: seq<Scored>, bound: int) {
    forall i :: 0 <= i < |xs| ==> xs[i].score <= bound
  }

  lemma SortedCons(h: Scored, t: seq<Scored>)
    ensures SortedDescending([h] + t) <==> SortedDescending(t) && AllAtMost(t, h.score)
  {
    var s := [h] + t;
    if SortedDescending(t) && AllAtMost(t, h.score) {
      forall i, j | 0 <= i < j < |s| ensures s[i].score >= s[j].score {
        if i > 0 {
          assert s[i] == t[i - 1] && s[j] == t[j - 1];
        } else {
          assert s[j] == t[j - 1];
        }
      }
    }
    if SortedDescending(s) {
      assert s[0] == h;
      forall i, j | 0 <= i < j < |t| ensures t[i].score >= t[j].score {
        assert s[i + 1] == t[i] && s[j + 1] == t[j];
      }
      forall i | 0 <= i < |t| ensures t[i].score <= h.score {
        assert s[i + 1] == t[i];
      }
    }
  }

  lemma {:induction false} InsertBound(x: Scored, ys: seq<Scored>, bound: int)
    requires AllAtMost(ys, bound) && x.score <= bound
    ensures AllAtMost(Insert(x, ys), bound)
  {
    if ys != [] && ys[0].score > x.score {
      InsertBound(x, ys[1..], bound);
      var tail := Insert(x, ys[1..]);
      assert Insert(x, ys) == [ys[0]] + tail;
    }
  }

  lemma {:induction false} InsertSorted(x: Scored, ys: seq<Scored>)
    requires SortedDescending(ys)
    ensures SortedDescending(Insert(x, ys))
  {
    if ys == [] || ys[0].score <= x.score {
      assert ys == [] || ys == [ys[0]] + ys[1..];
      if ys != [] {
        SortedCons(ys[0], ys[1..]);
      }
      SortedCons(x, ys);
    } else {
      assert ys == [ys[0]] + ys[1..];
      SortedCons(ys[0], ys[1..]);
      InsertSorted(x, ys[1..]);
      InsertBound(x, ys[1..], ys[0].score);
      SortedCons(ys[0], Insert(x, ys[1..]));
    }
  }

  lemma {:induction false} InsertKeepsScoreClasses(x: Scored, ys: seq<Scored>, k: int)
    ensures WithScore(Insert(x, ys), k) == (if x.score == k then [x] else []) + WithScore(ys, k)
  {
    var hx := if x.score == k then [x] else [];
    if ys == [] || ys[0].score <= x.score {
      assert ([x] + ys)[1..] == ys;
      assert WithScore([x] + ys, k) == hx + WithScore(ys, k);
    } else {
      var hy := if ys[0].score == k then [ys[0]] else [];
      var tail := Insert(x, ys[1..]);
      assert Insert(x, ys) == [ys[0]] + tail;
      assert ([ys[0]] + tail)[1..] == tail;
      assert WithScore([ys[0]] + tail, k) == hy + WithScore(tail, k);
      InsertKeepsScoreClasses(x, ys[1..], k);
      assert WithScore(ys, k) == hy + WithScore(ys[1..], k);
      assert hx == [] || hy == [];
      assert hy + (hx + WithScore(ys[1..], k)) == hx + (hy + WithScore(ys[1..], k));
    }
  }

  /** Stability: within every score class the sorted order is the input order. */
  lemma {:induction false} SortKeepsScoreClasses(xs: seq<Scored>, k: int)
    ensures WithScore(SortDescending(xs), k) == WithScore(xs, k)
  {
    if xs != [] {
      SortKeepsScoreClasses(xs[1..], k);
      InsertKeepsScoreClasses(xs[0], SortDescending(xs[1..]), k);
    }
  }

  lemma {:induction false} WithScoreMember(xs: seq<Scored>, k: int)
    ensures WithScore(xs, k) != [] <==> exists i :: 0 <= i < |xs| && xs[i].score == k
    ensures WithScore(xs, k) != [] && xs[0].score == k ==> WithScore(xs, k)[0] == xs[0]
  {
    if xs != [] {
      WithScoreMember(xs[1..], k);
      if exists i :: 0 <= i < |xs[1..]| && xs[1..][i].score == k {
        var i :| 0 <= i < |xs[1..]| && xs[1..][i].score == k;
        assert xs[i + 1].score == k;
      }
      if exists i :: 0 <= i < |xs| && xs[i].score == k {
        var i :| 0 <= i < |xs| && xs[i].score == k;
        if i > 0 {
          assert xs[1..][i - 1].score == k;
        }
      }
    }
  }

  lemma ClassOfHead(xs: seq<Scored>)
    requires xs != []
    ensures exists k :: WithScore(xs, k) != []
  {
    assert WithScore(xs, xs[0].score) != [];
  }

  /** A descending sort that keeps every score class in input order is unique: any two such
      arrangements are equal. So `SortDescending` is what every stable sort produces. */
  lemma {:induction false} StableSortUnique(a: seq<Scored>, b: seq<Scored>)
    requires SortedDescending(a) && SortedDescending(b)
    requires forall k :: WithScore(a, k) == WithScore(b, k)
    ensures a == b
    decreases |a| + |b|
  {
    if a == [] && b == [] {
    } else if a == [] {
      ClassOfHead(b);
    } else if b == [] {
      ClassOfHead(a);
    } else {
      var m := a[0].score;
      WithScoreMember(a, m);
      WithScoreMember(b, m);
      WithScoreMember(a, b[0].score);
      WithScoreMember(b, b[0].score);
      assert b[0].score == m;
      assert a[0] == b[0];
      forall k ensures WithScore(a[1..], k) == WithScore(b[1..], k) {
        TailScoreClasses(a, b, k);
      }
      StableSortUnique(a[1..], b[1..]);
      assert a == [a[0]] + a[1..];
      assert b == [b[0]] + b[1..];
    }
  }

  lemma TailScoreClasses(a: seq<Scored>, b: seq<Scored>, k: int)
    requires a != [] && b != [] && a[0] == b[0]
    requires WithScore(a, k) == WithScore(b, k)
    ensures WithScore(a[1..], k) == WithScore(b[1..], k)
  {
    if a[0].score == k {
      assert WithScore(a, k) == [a[0]] + WithScore(a[1..], k);
      assert WithScore(b, k) == [b[0]] + WithScore(b[1..], k);
      assert WithScore(a, k)[1..] == WithScore(a[1..], k);
      assert WithScore(b, k)[1..] == WithScore(b[1..], k);
    } else {
      assert WithScore(a, k) == WithScore(a[1..], k);
      assert WithScore(b, k) == WithScore(b[1..], k);
    }
  }

  /** Every arrangement that a stable descending sort may return is `SortDescending(xs)`. */
  lemma StableSortIsSortDescending(xs: seq<Scored>, r: seq<Scored>)
    requires SortedDescending(r)
    requires forall k :: WithScore(r, k) == WithScore(xs, k)
    ensures r == SortDescending(xs)
  {
    forall k ensures WithScore(r, k) == WithScore(SortDescending(xs), k) {
      SortKeepsScoreClasses(xs, k);
    }
    StableSortUnique(r, SortDescending(xs));
  }

  /** `allFiles.map(p => ({ path: p, score: scoreFile(p) }))`. */
  function ScoreAll(table: seq<Weight>, files: seq<string>): (r: seq<Scored>)
    ensures |r| == |files|
    ensures forall i :: 0 <= i < |r| ==> r[i] == Scored(files[i], Score(table, files[i]))
  {
    seq(|files|, i requires 0 <= i < |files| => Scored(files[i], Score(table, files[i])))
  }

  /** `.filter(f => f.score > 0)`. */
  function Positive(xs: seq<Scored>): (r: seq<Scored>)
    ensures |r| <= |xs|
    ensures forall e :: e in r <==> e in xs && e.score > 0
  {
    if xs == [] then []
    else (if xs[0].score > 0 then [xs[0]] else []) + Positive(xs[1..])
  }

  /** Filtering positives commutes with picking a positive score class. */
  lemma {:induction false} PositiveScoreClass(xs: seq<Scored>, k: int)
    ensures k > 0 ==> WithScore(Positive(xs), k) == WithScore(xs, k)
    ensures k <= 0 ==> WithScore(Positive(xs), k) == []
  {
    if xs != [] {
      PositiveScoreClass(xs[1..], k);
      var head := if xs[0].score > 0 then [xs[0]] else [];
      WithScoreAppend(head, Positive(xs[1..]), k);
    }
  }

  /** `ranked`: positive-scored entries in descending score order, stable on ties. */
  function Rank(table: seq<Weight>, files: seq<string>): (r: seq<Scored>)
    ensures |r| <= |files|
    ensures SortedDescending(r)
    ensures forall e :: e in r <==> e in ScoreAll(table, files) && e.score > 0
  {
    var s := SortDescending(Positive(ScoreAll(table, files)));
    assert forall e :: e in s <==> e in multiset(s);
    assert |s| == |multiset(s)|;
    s
  }

  /** The ranking is exactly the score-ordered, tree-order-preserving arrangement of the
      positively scored paths: each score class appears in tree order, and nothing else does. */
  lemma RankScoreClasses(table: seq<Weight>, files: seq<string>, k: int)
    ensures k > 0 ==> WithScore(Rank(table, files), k) == WithScore(ScoreAll(table, files), k)
    ensures k <= 0 ==> WithScore(Rank(table, files), k) == []
  {
    SortKeepsScoreClasses(Positive(ScoreAll(table, files)), k);
    PositiveScoreClass(ScoreAll(table, files), k);
  }

  /** `ranked.map(f => f.path)`. */
  function Paths(xs: seq<Scored>): (r: seq<string>)
    ensures |r| == |xs|
    ensures forall i :: 0 <= i < |xs| ==> r[i] == xs[i].path
  {
    seq(|xs|, i requires 0 <= i < |xs| => xs[i].path)
  }
}

=== FILE: redaction.dfy ===
/**
 * Secret redaction. Both copies of the pipeline pass every fetched text
 * through one global, case-insensitive regular-expression replacement: a key
 * word (`api_key`, `api-key`, `apikey`, `secret`, `password`, `token`),
 * optional whitespace, `:` or `=`, optional whitespace and a non-empty value
 * run become the key as written followed by `: [REDACTED]`. The scan is
 * textual: it knows nothing of the file's syntax.
 */
module Redaction {
  import opened Wrappers
  import opened JsText

  /** The key words in the order the pattern's alternatives try them. */
  const KeyNames: seq<string> := ["api_key", "api-key", "apikey", "secret", "password", "token"]

  /** What replaces the separator and the value. */
  const Marker: string := ": [REDACTED]"

  /** A value character: anything but whitespace and `'";,#`. */
  predicate IsValueChar(c: char) {
    !IsSpace(c) && c != '\'' && c != '"' && c != ';' && c != ',' && c != '#'
  }

  /** The key word `k` starts at position `p` of `s`, ignoring ASCII case. */
  predicate KeyAt(s: string, p: nat, k: string) {
    p + |k| <= |s| && Lower(s[p..p + |k|]) == k
  }

  /** The index of the first key of `keys`, from index `from` on, that starts at position
      `p` of `s`: the alternatives of the pattern are tried in order. */
  function FirstKey(s: string, p: nat, keys: seq<string>, from: nat): (r: Option<nat>)
    requires from <= |keys|
    ensures r.Some? ==> from <= r.value < |keys| && KeyAt(s, p, keys[r.value])
    decreases |keys| - from
  {
    if from == |keys| then None
    else if KeyAt(s, p, keys[from]) then Some(from)
    else FirstKey(s, p, keys, from + 1)
  }

  /** If some key from index `from` on starts at `p`, the search finds one, no later. */
  lemma {:induction false} FirstKeyFound(s: string, p: nat, keys: seq<string>, from: nat, i: nat)
    requires from <= i < |keys| && KeyAt(s, p, keys[i])
    ensures FirstKey(s, p, keys, from).Some? && FirstKey(s, p, keys, from).value <= i
    decreases |keys| - from
  {
    if !KeyAt(s, p, keys[from]) {
      FirstKeyFound(s, p, keys, from + 1, i);
    }
  }

  /** `a` is a prefix of `b`. */
  predicate IsPrefix(a: string, b: string) {
    |a| <= |b| && b[..|a|] == a
  }

  /** Key alternatives the pattern can use unambiguously: none empty and none a prefix
      of another. */
  predicate GoodKeys(keys: seq<string>) {
    && (forall i :: 0 <= i < |keys| ==> |keys[i]| > 0)
    && (forall i, j :: 0 <= i < |keys| && 0 <= j < |keys| && IsPrefix(keys[i], keys[j]) ==> i == j)
  }

  /** The six key words qualify. */
  lemma {:induction false} KeyNamesGood()
    ensures GoodKeys(KeyNames)
  {
    forall i, j | 0 <= i < |KeyNames| && 0 <= j < |KeyNames| && IsPrefix(KeyNames[i], KeyNames[j])
      ensures i == j
    {
      var a, b := KeyNames[i], KeyNames[j];
      assert |a| >= 4;
      assert b[..|a|][0] == b[0] && b[..|a|][1] == b[1] && b[..|a|][2] == b[2] && b[..|a|][3] == b[3];
      assert a[0] == b[0] && a[1] == b[1] && a[2] == b[2] && a[3] == b[3];
      assert i == 0 || i == 1 || i == 2 || i == 3 || i == 4 || i == 5;
      assert j == 0 || j == 1 || j == 2 || j == 3 || j == 4 || j == 5;
    }
  }

  /** Of two key words starting at the same position, the shorter is a prefix of the
      longer. */
  lemma {:induction false} KeyAtPrefix(s: string, p: nat, a: string, b: string)
    requires KeyAt(s, p, a) && KeyAt(s, p, b) && |a| <= |b|
    ensures IsPrefix(a, b)
  {
    LowerSlice(s[p..p + |b|], 0, |a|);
    assert s[p..p + |b|][..|a|] == s[p..p + |a|];
  }

  /** With good keys, at most one key starts at any position. */
  lemma {:induction false} KeyAtUnique(keys: seq<string>, s: string, p: nat, i: nat, j: nat)
    requires GoodKeys(keys) && i < |keys| && j < |keys|
    requires KeyAt(s, p, keys[i]) && KeyAt(s, p, keys[j])
    ensures i == j
  {
    if |keys[i]| <= |keys[j]| {
      KeyAtPrefix(s, p, keys[i], keys[j]);
    } else {
      KeyAtPrefix(s, p, keys[j], keys[i]);
    }
  }

  /** Text from `p` to `a` that is a key in any case is matched as exactly that key. */
  lemma {:induction false} MatchKeyWord(keys: seq<string>, s: string, p: nat, a: nat, i: nat)
    requires GoodKeys(keys) && p <= a <= |s| && i < |keys| && keys[i] == Lower(s[p..a])
    ensures FirstKey(s, p, keys, 0) == Some(i) && |keys[i]| == a - p > 0
  {
    assert KeyAt(s, p, keys[i]);
    FirstKeyFound(s, p, keys, 0, i);
    KeyAtUnique(keys, s, p, i, FirstKey(s, p, keys, 0).value);
  }

  /** A match of the pattern: the key ends at `keyEnd`, the value at `end`. */
  datatype SecretMatch = SecretMatch(keyEnd: nat, end: nat)

  /** The pattern tried at position `p` of `s`, with the key alternatives `keys`: a key,
      `\s*`, `:` or `=`, `\s*` and a non-empty run of value characters. The whitespace runs
      and the value run are greedy, and backtracking them cannot help, since neither
      separator nor a value character is whitespace; so the first key that fits decides.
      An empty key never matches, which keeps the scan moving. */
  function MatchAt(s: string, p: nat, keys: seq<string>): (m: Option<SecretMatch>)
    requires p <= |s|
    ensures m.Some? ==> p < m.value.keyEnd < m.value.end <= |s|
  {
    match FirstKey(s, p, keys, 0)
    case None => None
    case Some(i) =>
      var a := p + |keys[i]|;
      if a == p then None
      else
        var b := RunEnd(s, a, IsSpace);
        if b < |s| && (s[b] == ':' || s[b] == '=') then
          var c := RunEnd(s, b + 1, IsSpace);
          var d := RunEnd(s, c, IsValueChar);
          if c < d then Some(SecretMatch(a, d)) else None
        else None
  }

  /** The replacement from position `p` on: every match, scanning left to right and
      resuming after each replacement, becomes its key followed by `: [REDACTED]`. */
  function RedactFrom(s: string, p: nat, keys: seq<string>): (r: string)
    requires p <= |s|
    decreases |s| - p
  {
    if p == |s| then []
    else match MatchAt(s, p, keys)
      case Some(m) => s[p..m.keyEnd] + Marker + RedactFrom(s, m.end, keys)
      case None => [s[p]] + RedactFrom(s, p + 1, keys)
  }

  /** `redactSecrets(text)`: the replacement with the six key words over the whole text. */
  function Redact(s: string): (r: string)
    ensures s == [] ==> r == []
  {
    RedactFrom(s, 0, KeyNames)
  }

  /** No match of the pattern starts at position `j` of `s`. */
  predicate Unmatched(s: string, j: nat, keys: seq<string>) {
    j <= |s| && MatchAt(s, j, keys).None?
  }

  /** Text that redaction passes over is kept character by character: when no match starts
      in `[p, q)`, that stretch is copied and the scan carries on at `q`. */
  lemma {:induction false} RedactSkips(s: string, p: nat, q: nat, keys: seq<string>)
    requires p <= q <= |s|
    requires forall j :: p <= j < q ==> Unmatched(s, j, keys)
    ensures RedactFrom(s, p, keys) == s[p..q] + RedactFrom(s, q, keys)
    decreases q - p
  {
    if p < q {
      RedactCopies(s, p, keys);
      RedactSkips(s, p + 1, q, keys);
      ConsSlice(s, p, q, RedactFrom(s, p + 1, keys), RedactFrom(s, q, keys));
    }
  }

  /** One character in front of a copied stretch extends the stretch. */
  lemma ConsSlice(s: string, p: nat, q: nat, rest: string, tail: string)
    requires p < q <= |s| && rest == s[p + 1..q] + tail
    ensures [s[p]] + rest == s[p..q] + tail
  {
    assert s[p..q] == [s[p]] + s[p + 1..q];
  }

  /** Where no match starts, the scan copies one character and moves on. */
  lemma RedactCopies(s: string, p: nat, keys: seq<string>)
    requires p < |s| && Unmatched(s, p, keys)
    ensures RedactFrom(s, p, keys) == [s[p]] + RedactFrom(s, p + 1, keys)
  {
  }

  /** Text with no assignment of a secret anywhere comes back unchanged. */
  lemma {:induction false} RedactWithoutSecrets(s: string)
    requires forall j, a, b, c, d :: !AssignmentAt(KeyNames, s, j, a, b, c, d)
    ensures Redact(s) == s
  {
    forall j | 0 <= j < |s| ensures Unmatched(s, j, KeyNames) {
      MatchIsAssignment(KeyNames, s, j);
    }
    RedactSkips(s, 0, |s|, KeyNames);
    assert s[0..|s|] == s;
  }

  /** An assignment of a secret at position `p` of `s`: the key as written (any case of a
      key word) up to `a`, whitespace up to `b`, `:` or `=` at `b`, whitespace up to `c`
      and a maximal run of value characters up to `d`. */
  predicate AssignmentAt(keys: seq<string>, s: string, p: nat, a: nat, b: nat, c: nat, d: nat) {
    && p <= a <= b < c < d <= |s|
    && Lower(s[p..a]) in keys
    && (forall k :: a <= k < b ==> IsSpace(s[k]))
    && (s[b] == ':' || s[b] == '=')
    && (forall k :: b < k < c ==> IsSpace(s[k]))
    && (forall k :: c <= k < d ==> IsValueChar(s[k]))
    && (d == |s| || !IsValueChar(s[d]))
  }

  /** Neither separator is whitespace. */
  lemma SeparatorsAreNotSpace()
    ensures !IsSpace(':') && !IsSpace('=')
  {
  }

  /** An assignment is matched exactly: from its key to the end of its value. */
  lemma {:induction false} MatchAssignment(keys: seq<string>, s: string, p: nat, a: nat, b: nat, c: nat, d: nat)
    requires GoodKeys(keys) && AssignmentAt(keys, s, p, a, b, c, d)
    ensures MatchAt(s, p, keys) == Some(SecretMatch(a, d))
  {
    var i :| 0 <= i < |keys| && keys[i] == Lower(s[p..a]);
    MatchKeyWord(keys, s, p, a, i);
    AssignmentRuns(keys, s, p, a, b, c, d);
    MatchAtSteps(keys, s, p, i, b, c, d);
  }

  /** Conversely, every match is an assignment: its key ends at `keyEnd`, its value at
      `end`, and the separator sits where the first whitespace run stops. */
  lemma {:induction false} MatchIsAssignment(keys: seq<string>, s: string, p: nat)
    requires p <= |s|
    ensures MatchAt(s, p, keys).Some? ==>
      var m := MatchAt(s, p, keys).value;
      var b := RunEnd(s, m.keyEnd, IsSpace);
      b < |s| && AssignmentAt(keys, s, p, m.keyEnd, b, RunEnd(s, b + 1, IsSpace), m.end)
  {
    if MatchAt(s, p, keys).Some? {
      MatchIsAssignmentSteps(keys, s, p);
    }
  }

  lemma {:induction false} MatchIsAssignmentSteps(keys: seq<string>, s: string, p: nat)
    requires p <= |s| && MatchAt(s, p, keys).Some?
    ensures var m := MatchAt(s, p, keys).value;
      var b := RunEnd(s, m.keyEnd, IsSpace);
      b < |s| && AssignmentAt(keys, s, p, m.keyEnd, b, RunEnd(s, b + 1, IsSpace), m.end)
  {
    var i, b, c, d := MatchAtParts(keys, s, p);
    assert keys[i] in keys;
    RunsMakeAssignment(keys, s, p, p + |keys[i]|, b, c, d);
  }

  /** The steps `MatchAt` took to a match: the key it chose and where each run ended. */
  lemma MatchAtParts(keys: seq<string>, s: string, p: nat) returns (i: nat, b: nat, c: nat, d: nat)
    requires p <= |s| && MatchAt(s, p, keys).Some?
    ensures i < |keys| && p + |keys[i]| <= |s| && Lower(s[p..p + |keys[i]|]) == keys[i]
    ensures b == RunEnd(s, p + |keys[i]|, IsSpace) && b < |s| && (s[b] == ':' || s[b] == '=')
    ensures c == RunEnd(s, b + 1, IsSpace) && d == RunEnd(s, c, IsValueChar) && c < d
    ensures MatchAt(s, p, keys) == Some(SecretMatch(p + |keys[i]|, d))
  {
    i := FirstKey(s, p, keys, 0).value;
    b := RunEnd(s, p + |keys[i]|, IsSpace);
    c := RunEnd(s, b + 1, IsSpace);
    d := RunEnd(s, c, IsValueChar);
  }

  /** Runs found by `RunEnd` around a separator after a key make an assignment. */
  lemma RunsMakeAssignment(keys: seq<string>, s: string, p: nat, a: nat, b: nat, c: nat, d: nat)
    requires p <= a <= |s| && Lower(s[p..a]) in keys
    requires b == RunEnd(s, a, IsSpace) && b < |s| && (s[b] == ':' || s[b] == '=')
    requires c == RunEnd(s, b + 1, IsSpace) && d == RunEnd(s, c, IsValueChar) && c < d
    ensures AssignmentAt(keys, s, p, a, b, c, d)
  {
    RunEndSpan(s, a, IsSpace);
    RunEndSpan(s, b + 1, IsSpace);
    RunEndSpan(s, c, IsValueChar);
  }

  /** The three runs of an assignment end where the assignment says. */
  lemma AssignmentRuns(keys: seq<string>, s: string, p: nat, a: nat, b: nat, c: nat, d: nat)
    requires AssignmentAt(keys, s, p, a, b, c, d)
    ensures RunEnd(s, a, IsSpace) == b && RunEnd(s, b + 1, IsSpace) == c && RunEnd(s, c, IsValueChar) == d
  {
    SeparatorsAreNotSpace();
    RunEndAt(s, a, b, IsSpace);
    RunEndAt(s, b + 1, c, IsSpace);
    RunEndAt(s, c, d, IsValueChar);
  }

  /** `MatchAt` read off its steps: the first fitting key, the whitespace run, the separator,
      the second whitespace run and the value run. */
  lemma MatchAtSteps(keys: seq<string>, s: string, p: nat, i: nat, b: nat, c: nat, d: nat)
    requires p <= |s| && i < |keys| && FirstKey(s, p, keys, 0) == Some(i) && keys[i] != []
    requires p + |keys[i]| <= |s| && RunEnd(s, p + |keys[i]|, IsSpace) == b
    requires b < |s| && (s[b] == ':' || s[b] == '=')
    requires RunEnd(s, b + 1, IsSpace) == c && RunEnd(s, c, IsValueChar) == d && c < d
    ensures MatchAt(s, p, keys) == Some(SecretMatch(p + |keys[i]|, d))
  {
  }

  /** Redacting from an assignment keeps the key as written, replaces the separator and
      value by `: [REDACTED]` and carries on after the value. */
  lemma {:induction false} RedactReplacesValue(keys: seq<string>, s: string, p: nat, a: nat, b: nat, c: nat, d: nat)
    requires GoodKeys(keys) && AssignmentAt(keys, s, p, a, b, c, d)
    ensures RedactFrom(s, p, keys) == s[p..a] + Marker + RedactFrom(s, d, keys)
  {
    MatchAssignment(keys, s, p, a, b, c, d);
  }

  /** The same for the six key words on a text that opens with an assignment:
      `password = hunter2;` turns into `password: [REDACTED];`. */
  lemma {:induction false} RedactSecretAssignment(s: string, a: nat, b: nat, c: nat, d: nat)
    requires AssignmentAt(KeyNames, s, 0, a, b, c, d)
    ensures Redact(s) == s[..a] + Marker + RedactFrom(s, d, KeyNames)
  {
    KeyNamesGood();
    RedactReplacesValue(KeyNames, s, 0, a, b, c, d);
    assert s[0..a] == s[..a];
  }

  /** A fetched snippet: the redacted text cut to at most `maxLength` characters. */
  function Snippet(text: string, maxLength: int): (r: string)
    ensures maxLength >= 0 ==> |r| <= maxLength
    ensures |r| <= |Redact(text)| && r == Redact(text)[..|r|]
    ensures maxLength >= 0 ==> |r| == if maxLength < |Redact(text)| then maxLength else |Redact(text)|
    ensures maxLength < 0 ==> |r| == if |Redact(text)| + maxLength < 0 then 0 else |Redact(text)| + maxLength
  {
    Slice0(Redact(text), maxLength)
  }

  /** A text with no secret that fits the limit is sampled whole. */
  lemma SnippetOfPlainText(text: string, maxLength: int)
    requires forall j, a, b, c, d :: !AssignmentAt(KeyNames, text, j, a, b, c, d)
    requires maxLength >= |text|
    ensures Snippet(text, maxLength) == text
  {
    RedactWithoutSecrets(text);
  }
}

=== FILE: scoring.dfy ===
/**
 * Relevance scoring of repository paths. Both copies of the pipeline score a
 * path the same way and differ only in the weight table: a path with a
 * binary or junk extension gets the hard-exclude score, any other path gets
 * the sum of the weights of every table pattern that occurs in its
 * lower-cased text.
 */
module Scoring {
  import opened JsText

  /** One row of a weight table: a lower-case substring and what it adds. */
  datatype Weight = Weight(pattern: string, score: int)

  /** The hard-exclude score of a junk path. */
  const ExcludedScore: int := -999

  /** The background worker's table (src/worker/repoWorker.js). */
  const WorkerWeights: seq<Weight> := [
    Weight("readme", 10),
    Weight("package.json", 10),
    Weight("requirements.txt", 10),
    Weight("setup.py", 10),
    Weight("pyproject.toml", 10),
    Weight("main.", 9),
    Weight("index.", 9),
    Weight("app.", 9),
    Weight("src/", 7),
    Weight("lib/", 7),
    Weight("core/", 7),
    Weight("backend/", 6),
    Weight("components/", 6),
    Weight("dockerfile", 5),
    Weight(".github/workflows", 4),
    Weight("tests/", 4),
    Weight("docs/", 3),
    Weight(".env.example", 3),
    Weight("makefile", 3),
    Weight("license", 2)
  ]

  /** The inline fallback's own table (src/App.jsx): fewer rows, different weights. */
  const InlineWeights: seq<Weight> := [
    Weight("readme", 10),
    Weight("package.json", 10),
    Weight("requirements.txt", 10),
    Weight("pyproject.toml", 8),
    Weight("main.", 9),
    Weight("src/", 9),
    Weight("index.", 8),
    Weight("app.", 8),
    Weight("lib/", 6),
    Weight("core/", 5),
    Weight("components/", 5),
    Weight("dockerfile", 4),
    Weight(".github/workflows", 3),
    Weight("tests/", 3),
    Weight("docs/", 2)
  ]

  /** Extensions that force the hard-exclude score. */
  const JunkExtensions: seq<string> :=
    ["png", "jpg", "jpeg", "gif", "svg", "ico", "map", "lock", "zip", "pdf", "mp4", "exe", "dll"]

  /** Extensions the inline path falls back to when nothing scores positively. */
  const FallbackExtensions: seq<string> :=
    ["js", "ts", "py", "java", "go", "md", "json", "yaml", "yml"]

  /** `path` matches `\.ext$` case-insensitively: it ends with a dot and then `ext`. */
  predicate HasExtension(path: string, ext: string) {
    |ext| < |path| && path[|path| - |ext| - 1] == '.' && Lower(path[|path| - |ext|..]) == ext
  }

  /** `path` matches `\.(e1|e2|...)$` case-insensitively. */
  predicate HasAnyExtension(path: string, exts: seq<string>) {
    exists e :: e in exts && HasExtension(path, e)
  }

  predicate IsJunk(path: string) {
    HasAnyExtension(path, JunkExtensions)
  }

  /** What one table row adds for an already lower-cased path. */
  function Gain(lowered: string, w: Weight): int {
    if Contains(lowered, w.pattern) then w.score else 0
  }

  /** The sum of the weights of the rows whose pattern occurs in `lowered`,
      accumulated left to right over the table. */
  function MatchedWeight(lowered: string, table: seq<Weight>): int {
    if table == [] then 0
    else MatchedWeight(lowered, table[..|table| - 1]) + Gain(lowered, table[|table| - 1])
  }

  predicate NonNegativeWeights(table: seq<Weight>) {
    forall i :: 0 <= i < |table| ==> table[i].score >= 0
  }

  predicate PositiveWeights(table: seq<Weight>) {
    forall i :: 0 <= i < |table| ==> table[i].score > 0
  }

  /** `scoreFile(path)` for a given weight table. */
  function Score(table: seq<Weight>, path: string): (r: int)
    ensures IsJunk(path) ==> r == ExcludedScore
    ensures r > 0 ==> !IsJunk(path)
  {
    if IsJunk(path) then ExcludedScore else MatchedWeight(Lower(path), table)
  }

  /** The worker's `scoreFile`: a loop over the table adding the weight of every matching row. */
  method ScoreFile(table: seq<Weight>, path: string) returns (s: int)
    ensures s == Score(table, path)
  {
    if IsJunk(path) {
      return ExcludedScore;
    }
    var lowered := Lower(path);
    s := 0;
    for i := 0 to |table|
      invariant s == MatchedWeight(lowered, table[..i])
    {
      assert table[..i + 1][..i] == table[..i];
      if Contains(lowered, table[i].pattern) {
        s := s + table[i].score;
      }
    }
    assert table[..|table|] == table;
  }

  /** With non-negative weights the sum of matched weights is never negative. */
  lemma {:induction false} MatchedWeightNonNegative(lowered: string, table: seq<Weight>)
    requires NonNegativeWeights(table)
    ensures MatchedWeight(lowered, table) >= 0
  {
    if table != [] {
      MatchedWeightNonNegative(lowered, table[..|table| - 1]);
    }
  }

  /** With positive weights a path's sum is positive exactly when some row's pattern occurs in it,
      and every matching row's weight is counted. */
  lemma {:induction false} MatchedWeightPositive(lowered: string, table: seq<Weight>)
    requires PositiveWeights(table)
    ensures MatchedWeight(lowered, table) > 0
        <==> exists i :: 0 <= i < |table| && Contains(lowered, table[i].pattern)
    ensures forall i :: 0 <= i < |table| && Contains(lowered, table[i].pattern) ==>
              MatchedWeight(lowered, table) >= table[i].score
  {
    if table != [] {
      var init := table[..|table| - 1];
      MatchedWeightPositive(lowered, init);
      MatchedWeightNonNegative(lowered, init);
      forall i | 0 <= i < |init| ensures init[i] == table[i] {
      }
    }
  }

  /** A score is never negative unless it is the hard-exclude score. */
  lemma ScoreNonNegativeUnlessJunk(table: seq<Weight>, path: string)
    requires NonNegativeWeights(table)
    ensures !IsJunk(path) ==> Score(table, path) >= 0
    ensures Score(table, path) < 0 ==> Score(table, path) == ExcludedScore
  {
    MatchedWeightNonNegative(Lower(path), table);
  }

  /** With positive weights, a path scores positively exactly when it is not junk and some
      pattern of the table occurs in its lower-cased text. */
  lemma ScorePositiveIff(table: seq<Weight>, path: string)
    requires PositiveWeights(table)
    ensures Score(table, path) > 0
        <==> !IsJunk(path) && exists i :: 0 <= i < |table| && Contains(Lower(path), table[i].pattern)
  {
    MatchedWeightPositive(Lower(path), table);
  }

  lemma TablesArePositive()
    ensures PositiveWeights(WorkerWeights)
    ensures PositiveWeights(InlineWeights)
  {
  }

  /** A path ends in at most one dot-free extension. */
  lemma ExtensionUnique(path: string, e1: string, e2: string)
    requires '.' !in e1 && '.' !in e2
    requires HasExtension(path, e1) && HasExtension(path, e2)
    ensures e1 == e2
  {
    if |e1| != |e2| {
      var (short, long) := if |e1| < |e2| then (e1, e2) else (e2, e1);
      var k := |path| - |short| - 1;
      var off := |path| - |long|;
      LowerSlice(path, off, |path|);
    }
  }

  /** The two extension lists share nothing, and no extension contains a dot. */
  lemma ExtensionListsDisjoint()
    ensures forall e :: e in JunkExtensions ==> '.' !in e && e !in FallbackExtensions
    ensures forall e :: e in FallbackExtensions ==> '.' !in e
  {
  }

  /** No path has both a junk extension and an inline-fallback extension. */
  lemma JunkExcludesFallback(path: string)
    ensures IsJunk(path) ==> !HasAnyExtension(path, FallbackExtensions)
  {
    if IsJunk(path) && HasAnyExtension(path, FallbackExtensions) {
      var e1 :| e1 in JunkExtensions && HasExtension(path, e1);
      var e2 :| e2 in FallbackExtensions && HasExtension(path, e2);
      ExtensionListsDisjoint();
      ExtensionUnique(path, e1, e2);
      assert false;
    }
  }

  /** The table sum splits over a split of the table. */
  lemma {:induction false} MatchedWeightAppend(lowered: string, a: seq<Weight>, b: seq<Weight>)
    ensures MatchedWeight(lowered, a + b) == MatchedWeight(lowered, a) + MatchedWeight(lowered, b)
    decreases |b|
  {
    if b == [] {
      assert a + b == a;
    } else {
      var init := b[..|b| - 1];
      assert (a + b)[..|a + b| - 1] == a + init;
      MatchedWeightAppend(lowered, a, init);
    }
  }
}

=== FILE: selection.dfy ===
/**
 * File selection. The worker takes the ranked paths, appends the first five
 * top-level paths, removes repeats keeping first occurrences and caps the
 * list at the sample limit. The inline path takes the first fifteen ranked
 * paths and, when nothing scores positively, falls back to the first fifteen
 * tree paths with a source or documentation extension.
 */
module Selection {
  import opened JsText
  import opened Scoring
  import opened Ranking

  /** How many top-level paths the worker adds to the ranking. */
  const TopLevelCount: int := 5

  /** The inline path's fixed cap on selected files. */
  const InlineLimit: int := 15

  /** The elements of a sequence as a set. */
  function Elements(xs: seq<string>): (r: set<string>)
    ensures forall x :: x in r <==> x in xs
  {
    set x | x in xs
  }

  /** `Array.from(new Set(xs))` started with `seen` already present: the elements of `xs`
      not in `seen`, each at its first occurrence. */
  function Dedupe(xs: seq<string>, seen: set<string>): (r: seq<string>)
    ensures |r| <= |xs|
    ensures NoDuplicates(r)
    ensures forall x :: x in r <==> x in xs && x !in seen
    ensures IsSubsequence(r, xs)
  {
    if xs == [] then []
    else if xs[0] in seen then Dedupe(xs[1..], seen)
    else
      var rest := Dedupe(xs[1..], seen + {xs[0]});
      assert ([xs[0]] + rest)[1..] == rest;
      [xs[0]] + rest
  }

  /** Removing repeats from a concatenation works left part first: the right part only
      contributes what the left part did not already contain. */
  lemma {:induction false} DedupeAppend(a: seq<string>, b: seq<string>, seen: set<string>)
    ensures Dedupe(a + b, seen) == Dedupe(a, seen) + Dedupe(b, seen + Elements(a))
  {
    if a == [] {
      assert a + b == b;
      assert seen + Elements(a) == seen;
    } else {
      assert (a + b)[1..] == a[1..] + b;
      assert (a + b)[0] == a[0];
      if a[0] in seen {
        DedupeAppend(a[1..], b, seen);
        assert seen + Elements(a[1..]) == seen + Elements(a);
      } else {
        DedupeAppend(a[1..], b, seen + {a[0]});
        assert seen + {a[0]} + Elements(a[1..]) == seen + Elements(a);
      }
    }
  }

  /** Each element lands at its first occurrence: when `xs[i]` appears neither earlier in
      `xs` nor in `seen`, the result is what the part before it keeps, then `xs[i]`, then
      whatever after it is new. */
  lemma DedupeFirstOccurrence(xs: seq<string>, seen: set<string>, i: nat)
    requires i < |xs| && xs[i] !in xs[..i] && xs[i] !in seen
    ensures Dedupe(xs, seen) == Dedupe(xs[..i], seen) + [xs[i]] + Dedupe(xs[i + 1..], seen + Elements(xs[..i + 1]))
  {
    var left, right := xs[..i], xs[i..];
    var known := seen + Elements(left);
    var later := seen + Elements(xs[..i + 1]);
    SplitAround(xs, i);
    DedupeAppend(left, right, seen);
    assert xs[i] !in known;
    ElementsSnoc(left, xs[i]);
    assert known + {xs[i]} == later;
    var tail := Dedupe(xs[i + 1..], later);
    assert Dedupe(right, known) == [xs[i]] + tail;
    ConcatAssoc(Dedupe(left, seen), [xs[i]], tail);
  }

  /** Cutting a sequence at `i` and the slices around `xs[i]`. */
  lemma SplitAround(xs: seq<string>, i: nat)
    requires i < |xs|
    ensures xs == xs[..i] + xs[i..]
    ensures xs[i..][0] == xs[i] && xs[i..][1..] == xs[i + 1..]
    ensures xs[..i + 1] == xs[..i] + [xs[i]]
  {
  }

  lemma ConcatAssoc(a: seq<string>, b: seq<string>, c: seq<string>)
    ensures a + (b + c) == a + b + c
  {
  }

  lemma ElementsSnoc(xs: seq<string>, x: string)
    ensures Elements(xs + [x]) == Elements(xs) + {x}
  {
  }

  /** A sequence without repeats that avoids `seen` passes through unchanged. */
  lemma {:induction false} DedupeDistinct(xs: seq<string>, seen: set<string>)
    requires NoDuplicates(xs)
    requires forall x :: x in xs ==> x !in seen
    ensures Dedupe(xs, seen) == xs
  {
    if xs != [] {
      assert NoDuplicates(xs[1..]);
      forall x | x in xs[1..] ensures x !in seen + {xs[0]} {
        var j :| 0 <= j < |xs[1..]| && xs[1..][j] == x;
        assert xs[j + 1] == x;
      }
      DedupeDistinct(xs[1..], seen + {xs[0]});
      assert xs == [xs[0]] + xs[1..];
    }
  }

  /** A path with no directory part. */
  predicate IsTopLevel(path: string) {
    '/' !in path
  }

  /** `allFiles.filter(p => !p.includes("/")).slice(0, 5)`. */
  function TopLevel(files: seq<string>): (r: seq<string>)
    ensures |r| <= TopLevelCount
    ensures forall p :: p in r ==> p in files && IsTopLevel(p)
    ensures IsSubsequence(r, files)
    ensures var all := Filter(files, IsTopLevel);
      |r| == (if |all| < TopLevelCount then |all| else TopLevelCount) && r == all[..|r|]
  {
    var all := Filter(files, IsTopLevel);
    var r := Slice0(all, TopLevelCount);
    PrefixIsSubsequence(all, |r|);
    SubsequenceTransitive(r, all, files);
    SubsequenceMembers(r, all);
    r
  }

  /** A top-level path of the tree is left out only behind five earlier top-level paths:
      the selection is full and lies entirely before it. */
  lemma TopLevelSkipsOnlyLater(files: seq<string>, i: nat)
    requires i < |files| && IsTopLevel(files[i]) && files[i] !in TopLevel(files)
    ensures |TopLevel(files)| == TopLevelCount
    ensures IsSubsequence(TopLevel(files), files[..i])
  {
    var r := TopLevel(files);
    var before := Filter(files[..i], IsTopLevel);
    TopLevelReaches(files, i);
    assert r == before[..TopLevelCount];
    PrefixIsSubsequence(before, TopLevelCount);
    SubsequenceTransitive(r, before, files[..i]);
  }

  /** The selection starts with the top-level paths before index `i`, and reaches the
      path at `i` when fewer than five come before it. */
  lemma TopLevelReaches(files: seq<string>, i: nat)
    requires i < |files| && IsTopLevel(files[i])
    ensures var before := Filter(files[..i], IsTopLevel);
      && |before| <= |Filter(files, IsTopLevel)| && Filter(files, IsTopLevel)[..|before|] == before
      && (|before| < TopLevelCount ==> files[i] in TopLevel(files))
  {
    var before, after := Filter(files[..i], IsTopLevel), Filter(files[i..], IsTopLevel);
    SplitAround(files, i);
    FilterAppend(files[..i], files[i..], IsTopLevel);
    assert after[0] == files[i];
    assert (before + after)[..|before|] == before;
    if |before| < TopLevelCount {
      assert (before + after)[|before|] == files[i];
      assert TopLevel(files)[|before|] == files[i];
    }
  }

  /** A path appears in the ranking exactly when it is in the tree and scores positively. */
  lemma RankedPaths(table: seq<Weight>, files: seq<string>, p: string)
    ensures p in Paths(Rank(table, files)) <==> p in files && Score(table, p) > 0
  {
    var ranked := Rank(table, files);
    var all := ScoreAll(table, files);
    if p in Paths(ranked) {
      var i :| 0 <= i < |ranked| && Paths(ranked)[i] == p;
      assert ranked[i] in ranked;
      var j :| 0 <= j < |all| && all[j] == ranked[i];
      assert files[j] == p;
    }
    if p in files && Score(table, p) > 0 {
      var j :| 0 <= j < |files| && files[j] == p;
      assert all[j] in all;
      var i :| 0 <= i < |ranked| && ranked[i] == all[j];
      assert Paths(ranked)[i] == p;
    }
  }

  /** The ranking is empty exactly when no path of the tree scores positively. */
  lemma RankEmpty(table: seq<Weight>, files: seq<string>)
    ensures Rank(table, files) == [] <==> forall p :: p in files ==> Score(table, p) <= 0
  {
    var ranked := Rank(table, files);
    if ranked != [] {
      RankedPaths(table, files, Paths(ranked)[0]);
    }
    forall p | p in files && Score(table, p) > 0 ensures ranked != [] {
      RankedPaths(table, files, p);
    }
  }

  /** A sequence has no repeats exactly when its multiset counts every element at most once. */
  lemma {:induction false} NoDuplicatesMultiset<T>(s: seq<T>)
    ensures NoDuplicates(s) <==> forall x :: multiset(s)[x] <= 1
  {
    if s != [] {
      var h, t := s[0], s[1..];
      assert s == [h] + t;
      NoDuplicatesMultiset(t);
      if NoDuplicates(s) {
        assert NoDuplicates(t) by {
          forall i, j | 0 <= i < j < |t| ensures t[i] != t[j] {
            assert t[i] == s[i + 1] && t[j] == s[j + 1];
          }
        }
        forall j | 0 <= j < |t| ensures t[j] != h {
          assert s[j + 1] == t[j];
        }
      }
      if forall x :: multiset(s)[x] <= 1 {
        forall x ensures multiset(t)[x] <= 1 {
          assert multiset(s)[x] == multiset(t)[x] + multiset([h])[x];
        }
        assert multiset(s)[h] == multiset(t)[h] + 1;
        forall i, j | 0 <= i < j < |s| ensures s[i] != s[j] {
          if i == 0 {
            assert s[j] == t[j - 1];
          } else {
            assert s[i] == t[i - 1] && s[j] == t[j - 1];
          }
        }
      }
    }
  }

  lemma {:induction false} PositiveDistinct(xs: seq<Scored>)
    requires NoDuplicates(xs)
    ensures NoDuplicates(Positive(xs))
  {
    if xs != [] {
      assert NoDuplicates(xs[1..]) by {
        forall i, j | 0 <= i < j < |xs[1..]| ensures xs[1..][i] != xs[1..][j] {
          assert xs[1..][i] == xs[i + 1] && xs[1..][j] == xs[j + 1];
        }
      }
      PositiveDistinct(xs[1..]);
      var rest := Positive(xs[1..]);
      if xs[0].score > 0 {
        forall j | 0 <= j < |xs[1..]| ensures xs[1..][j] != xs[0] {
          assert xs[1..][j] == xs[j + 1];
        }
        var r := [xs[0]] + rest;
        forall i, j | 0 <= i < j < |r| ensures r[i] != r[j] {
          if i == 0 {
            assert r[j] == rest[j - 1];
          } else {
            assert r[i] == rest[i - 1] && r[j] == rest[j - 1];
          }
        }
      } else {
        assert Positive(xs) == rest;
      }
    }
  }

  /** A tree that lists each path once yields a ranking without repeated entries. */
  lemma RankDistinct(table: seq<Weight>, files: seq<string>)
    requires NoDuplicates(files)
    ensures NoDuplicates(Rank(table, files))
  {
    var all := ScoreAll(table, files);
    assert NoDuplicates(all) by {
      forall i, j | 0 <= i < j < |all| ensures all[i] != all[j] {
        assert all[i].path == files[i] && all[j].path == files[j];
      }
    }
    PositiveDistinct(all);
    NoDuplicatesMultiset(Positive(all));
    NoDuplicatesMultiset(Rank(table, files));
  }

  /** A tree that lists each path once yields a ranking that lists each path once. */
  lemma RankedPathsDistinct(table: seq<Weight>, files: seq<string>)
    requires NoDuplicates(files)
    ensures NoDuplicates(Paths(Rank(table, files)))
  {
    var all := ScoreAll(table, files);
    var ranked := Rank(table, files);
    RankDistinct(table, files);
    var ps := Paths(ranked);
    forall i, j | 0 <= i < j < |ps| ensures ps[i] != ps[j] {
      assert ranked[i] in ranked && ranked[j] in ranked;
      var a :| 0 <= a < |all| && all[a] == ranked[i];
      var b :| 0 <= b < |all| && all[b] == ranked[j];
      assert ps[i] == files[a] && ps[j] == files[b];
    }
  }

  /** `finalFiles` in the worker. */
  function WorkerSelect(files: seq<string>, limit: int): (r: seq<string>)
    ensures NoDuplicates(r)
    ensures limit >= 0 ==> |r| <= limit
    ensures forall p :: p in r ==> p in files && (Score(WorkerWeights, p) > 0 || p in TopLevel(files))
  {
    var ranked := Paths(Rank(WorkerWeights, files));
    var merged := Dedupe(ranked + TopLevel(files), {});
    var r := Slice0(merged, limit);
    forall p | p in r ensures p in files && (Score(WorkerWeights, p) > 0 || p in TopLevel(files)) {
      assert p in merged;
      RankedPaths(WorkerWeights, files, p);
    }
    r
  }

  /** For a tree that lists each path once, the worker's selection is the whole ranking
      followed by those of the first five top-level paths the ranking does not already hold,
      cut to the sample limit. */
  lemma WorkerSelectShape(files: seq<string>, limit: int)
    requires NoDuplicates(files)
    ensures var ranked := Paths(Rank(WorkerWeights, files));
      WorkerSelect(files, limit)
        == Slice0(ranked + Dedupe(TopLevel(files), Elements(ranked)), limit)
  {
    var ranked := Paths(Rank(WorkerWeights, files));
    RankedPathsDistinct(WorkerWeights, files);
    MergeDistinct(ranked, TopLevel(files));
  }

  /** Removing repeats from a repeat-free sequence followed by more paths keeps the first
      part whole and adds what the second part brings that is new. */
  lemma MergeDistinct(ranked: seq<string>, more: seq<string>)
    requires NoDuplicates(ranked)
    ensures Dedupe(ranked + more, {}) == ranked + Dedupe(more, Elements(ranked))
  {
    DedupeAppend(ranked, more, {});
    DedupeDistinct(ranked, {});
    assert {} + Elements(ranked) == Elements(ranked);
  }

  /** The worker's selection is ordered by descending score as far as the ranking reaches. */
  lemma WorkerSelectRankedPrefix(files: seq<string>, limit: int)
    requires NoDuplicates(files)
    requires 0 <= limit <= |Rank(WorkerWeights, files)|
    ensures WorkerSelect(files, limit) == Paths(Rank(WorkerWeights, files))[..limit]
  {
    WorkerSelectShape(files, limit);
  }

  /** Every one of the first five top-level paths is selected once the limit leaves room
      for the whole ranking, whatever it scores: a junk path such as `logo.png` included. */
  lemma WorkerSelectsTopLevel(files: seq<string>, limit: int, p: string)
    requires p in TopLevel(files)
    requires limit >= |files| + TopLevelCount
    ensures p in WorkerSelect(files, limit)
  {
    var ranked := Paths(Rank(WorkerWeights, files));
    var merged := Dedupe(ranked + TopLevel(files), {});
    assert p in ranked + TopLevel(files);
    assert Slice0(merged, limit) == merged;
  }

  /** `logo.png` is such a path: junk, yet top-level. */
  lemma TopLevelJunkExists()
    ensures IsJunk("logo.png") && IsTopLevel("logo.png")
    ensures "logo.png" in TopLevel(["logo.png"])
  {
    assert HasExtension("logo.png", "png");
    assert Filter(["logo.png"], IsTopLevel) == ["logo.png"];
  }

  /** An inline-fallback path: one whose extension is source or documentation. */
  predicate IsFallbackSource(path: string) {
    HasAnyExtension(path, FallbackExtensions)
  }

  /** `finalFiles` in the inline path. */
  function InlineSelect(files: seq<string>): (r: seq<string>)
    ensures |r| <= InlineLimit
    ensures forall p :: p in r ==> p in files && !IsJunk(p)
  {
    var ranked := Rank(InlineWeights, files);
    var top := Slice0(ranked, InlineLimit);
    if top != [] then
      RankedPrefixMembers(InlineWeights, files, |top|);
      Paths(top)
    else
      var r := Slice0(Filter(files, IsFallbackSource), InlineLimit);
      forall p | p in r ensures p in files && !IsJunk(p) {
        JunkExcludesFallback(p);
      }
      r
  }

  /** The paths of a prefix of the ranking come from the tree and score positively, so none
      is junk. */
  lemma RankedPrefixMembers(table: seq<Weight>, files: seq<string>, n: nat)
    requires n <= |Rank(table, files)|
    ensures forall p :: p in Paths(Rank(table, files)[..n]) ==> p in files && Score(table, p) > 0
  {
    var ranked := Rank(table, files);
    forall p | p in Paths(ranked[..n]) ensures p in files && Score(table, p) > 0 {
      var i :| 0 <= i < n && Paths(ranked[..n])[i] == p;
      assert Paths(ranked)[i] == p;
      RankedPaths(table, files, p);
    }
  }

  /** When some path scores positively the inline selection is the first fifteen entries
      of the ranking: positive, non-increasing in score. */
  lemma InlineSelectRanked(files: seq<string>)
    requires exists p :: p in files && Score(InlineWeights, p) > 0
    ensures var ranked := Rank(InlineWeights, files);
      InlineSelect(files) == Paths(ranked[..if |ranked| < InlineLimit then |ranked| else InlineLimit])
    ensures InlineSelect(files) != []
    ensures PositiveDescending(InlineWeights, InlineSelect(files))
  {
    var n := InlineSelectIsRankedPrefix(files);
    RankedPrefixOrdered(InlineWeights, files, n);
  }

  /** Every path scores positively, and the scores never increase along the sequence. */
  predicate PositiveDescending(table: seq<Weight>, ps: seq<string>) {
    forall i, j :: 0 <= i < j < |ps| ==> Score(table, ps[i]) >= Score(table, ps[j]) > 0
  }

  /** The ranked case of the inline selection: a non-empty prefix of the ranking, returned
      with its length. */
  lemma InlineSelectIsRankedPrefix(files: seq<string>) returns (n: nat)
    requires exists p :: p in files && Score(InlineWeights, p) > 0
    ensures var ranked := Rank(InlineWeights, files);
      && n == (if |ranked| < InlineLimit then |ranked| else InlineLimit)
      && 0 < n <= |ranked|
      && InlineSelect(files) == Paths(ranked[..n])
  {
    var p :| p in files && Score(InlineWeights, p) > 0;
    RankedPaths(InlineWeights, files, p);
    var ranked := Rank(InlineWeights, files);
    var top := Slice0(ranked, InlineLimit);
    n := |top|;
    assert top == ranked[..n];
  }

  /** The paths of a prefix of the ranking score positively, in non-increasing order. */
  lemma RankedPrefixOrdered(table: seq<Weight>, files: seq<string>, n: nat)
    requires n <= |Rank(table, files)|
    ensures PositiveDescending(table, Paths(Rank(table, files)[..n]))
  {
    var ranked := Rank(table, files);
    var ps := Paths(ranked[..n]);
    forall i | 0 <= i < n ensures Score(table, ps[i]) == ranked[i].score > 0 {
      assert ps[i] == ranked[i].path;
      RankedEntryScore(table, files, ranked[i]);
    }
  }

  /** A ranked entry carries its path's score, which is positive. */
  lemma RankedEntryScore(table: seq<Weight>, files: seq<string>, e: Scored)
    requires e in Rank(table, files)
    ensures Score(table, e.path) == e.score > 0
  {
    var all := ScoreAll(table, files);
    var j :| 0 <= j < |all| && all[j] == e;
  }

  /** When nothing scores positively the inline selection is the first fifteen fallback-source
      paths in tree order, and it is non-empty as soon as the tree holds one. */
  lemma InlineSelectFallback(files: seq<string>)
    requires forall p :: p in files ==> Score(InlineWeights, p) <= 0
    ensures InlineSelect(files) == Slice0(Filter(files, IsFallbackSource), InlineLimit)
    ensures IsSubsequence(InlineSelect(files), files)
    ensures (exists p :: p in files && IsFallbackSource(p)) ==> InlineSelect(files) != []
    ensures forall p :: p in InlineSelect(files) ==> IsFallbackSource(p)
  {
    RankEmpty(InlineWeights, files);
    var all := Filter(files, IsFallbackSource);
    var r := Slice0(all, InlineLimit);
    PrefixIsSubsequence(all, |r|);
    SubsequenceTransitive(r, all, files);
    if exists p :: p in files && IsFallbackSource(p) {
      var p :| p in files && IsFallbackSource(p);
      assert p in all;
    }
  }
}

=== FILE: worker.dfy ===
/**
 * The background worker's run: one message with the repository and its tuning
 * parameters in, one reply out, either an error message or the payload with its
 * text preview. Every stage is one of the other modules; this one fixes their
 * order, their parameters and which failures end the run with which message.
 */
module Worker {
  import opened Wrappers
  import opened JsText
  import opened GitHub
  import opened Selection
  import opened FetchPool

  /** The message the worker receives; a field the message lacks is `None`. */
  datatype Message = Message(
    owner: Option<string>,
    repo: Option<string>,
    token: Option<string>,
    sampleLimit: Option<int>,
    maxSnippetLength: Option<int>,
    concurrency: Option<int>)

  /** The payload of a finished run. */
  datatype Payload = Payload(repo: string, metadata: Meta, samples: seq<Sample>, filesAnalyzed: nat)

  /** The worker's reply. */
  datatype Reply = Error(message: string) | Result(payload: Payload, preview: string)

  const MissingOwnerOrRepo: string := "Missing owner or repo"
  const TreeMissing: string := "Could not retrieve repo tree."

  /** `Number(v || fallback)` for a numeric field: zero and absence are falsy. */
  function NumberOr(v: Option<int>, fallback: int): (r: int)
    ensures v.Some? && v.value != 0 ==> r == v.value
    ensures v.None? || v.value == 0 ==> r == fallback
  {
    if v.Some? && v.value != 0 then v.value else fallback
  }

  /** The preview: seven lines, the last two a blank line and the ready notice. */
  function PreviewLines(repoName: string, meta: Meta, filesAnalyzed: nat, branch: string): (lines: seq<string>)
    ensures |lines| == 7
  {
    [ "\U{1F4E6} Repository: " + repoName,
      "\U{1F9E0} Type: " + OrElse(meta.language, "\U{2014}"),
      "\U{2B50} Stars: " + NatToString(meta.stars.GetOr(0)) + " | \U{1F374} Forks: " + NatToString(meta.forks.GetOr(0)),
      FilesLabel + NatToString(filesAnalyzed),
      "Branch: " + branch,
      "",
      "\U{2705} Ready for AI Handoff" ]
  }

  /** The preview text: its lines joined by newlines. */
  function Preview(repoName: string, meta: Meta, filesAnalyzed: nat, branch: string): string {
    Join(PreviewLines(repoName, meta, filesAnalyzed, branch), "\n")
  }

  /** No field that can hold a newline holds one. */
  predicate SingleLine(repoName: string, meta: Meta, branch: string) {
    '\n' !in repoName && '\n' !in branch && (meta.language.Some? ==> '\n' !in meta.language.value)
  }

  /** When no field holds a newline the preview splits back into its seven lines, so the
      count of files analyzed can be read back from its fourth line
      (`FilesAnalyzedReadBack`). */
  lemma PreviewRoundTrip(repoName: string, meta: Meta, filesAnalyzed: nat, branch: string)
    requires SingleLine(repoName, meta, branch)
    ensures Split(Preview(repoName, meta, filesAnalyzed, branch), '\n')
      == PreviewLines(repoName, meta, filesAnalyzed, branch)
  {
    var lines := PreviewLines(repoName, meta, filesAnalyzed, branch);
    forall i | 0 <= i < |lines| ensures '\n' !in lines[i] {
      NoNewlineInLine(repoName, meta, filesAnalyzed, branch, i);
    }
    assert [ '\n' ] == "\n";
    SplitJoin(lines, '\n');
  }

  /** The label of the preview's fourth line. */
  const FilesLabel: string := "\U{1F5C2}\U{FE0F} Files analyzed: "

  /** The count of files analyzed reads back from the fourth line of the split preview. */
  lemma FilesAnalyzedReadBack(repoName: string, meta: Meta, filesAnalyzed: nat, branch: string)
    requires SingleLine(repoName, meta, branch)
    ensures var lines := Split(Preview(repoName, meta, filesAnalyzed, branch), '\n');
      && |lines| == 7 && |FilesLabel| < |lines[3]| && lines[3][..|FilesLabel|] == FilesLabel
      && (forall i :: |FilesLabel| <= i < |lines[3]| ==> '0' <= lines[3][i] <= '9')
      && ParseNat(lines[3][|FilesLabel|..]) == filesAnalyzed
  {
    PreviewRoundTrip(repoName, meta, filesAnalyzed, branch);
    var digits := NatToString(filesAnalyzed);
    var line := PreviewLines(repoName, meta, filesAnalyzed, branch)[3];
    assert line == FilesLabel + digits;
    assert line[|FilesLabel|..] == digits;
    ParseNatToString(filesAnalyzed);
  }

  lemma {:induction false} NoNewlineInLine(repoName: string, meta: Meta, filesAnalyzed: nat, branch: string, i: nat)
    requires SingleLine(repoName, meta, branch) && i < 7
    ensures '\n' !in PreviewLines(repoName, meta, filesAnalyzed, branch)[i]
  {
    var lines := PreviewLines(repoName, meta, filesAnalyzed, branch);
    var stars, forks, files := NatToString(meta.stars.GetOr(0)), NatToString(meta.forks.GetOr(0)), NatToString(filesAnalyzed);
    assert '\n' !in stars && '\n' !in forks && '\n' !in files;
    if i == 0 {
      assert lines[0] == "\U{1F4E6} Repository: " + repoName;
    } else if i == 1 {
      assert lines[1] == "\U{1F9E0} Type: " + OrElse(meta.language, "\U{2014}");
    } else if i == 2 {
      assert lines[2] == "\U{2B50} Stars: " + stars + " | \U{1F374} Forks: " + forks;
    } else if i == 3 {
      assert lines[3] == "\U{1F5C2}\U{FE0F} Files analyzed: " + files;
    } else if i == 4 {
      assert lines[4] == "Branch: " + branch;
    }
  }

  /** The tree stage of a run on the repository described by `meta`. */
  function TreeOf(host: Host, meta: Meta): Step<seq<TreeEntry>> {
    ResolveTree(host, DefaultBranch(meta), TreeMissing)
  }

  /** The files a run on `meta` selects, once the tree is there. */
  function SelectedFiles(host: Host, msg: Message, meta: Meta): seq<string>
    requires TreeOf(host, meta).outcome.Success?
  {
    WorkerSelect(Blobs(TreeOf(host, meta).outcome.value), NumberOr(msg.sampleLimit, 15))
  }

  /** `self.onmessage`: validate, fetch the metadata, resolve the tree, select, fetch the
      selection with the pool and assemble the payload and its preview. */
  method Run(msg: Message, host: Host) returns (reply: Reply, requests: seq<Request>)
    ensures !Truthy(msg.owner) || !Truthy(msg.repo) ==> reply == Error(MissingOwnerOrRepo) && requests == []
    ensures Truthy(msg.owner) && Truthy(msg.repo) ==> requests != [] && requests[0] == MetaReq
    ensures Truthy(msg.owner) && Truthy(msg.repo) && host.meta.Failed? ==>
      reply == Error(host.meta.message) && requests == [MetaReq]
    ensures Truthy(msg.owner) && Truthy(msg.repo) && host.meta.NotOk? ==>
      reply == Error(MetaFailed(host.meta.status)) && requests == [MetaReq]
    ensures Truthy(msg.owner) && Truthy(msg.repo) && host.meta.Ok? && TreeOf(host, host.meta.body).outcome.Failure? ==>
      reply == Error(TreeOf(host, host.meta.body).outcome.error)
    ensures Truthy(msg.owner) && Truthy(msg.repo) && host.meta.Ok? && TreeOf(host, host.meta.body).outcome.Success? ==>
      && (NumberOr(msg.concurrency, 4) > 0 ==> reply.Result?)
      && (NumberOr(msg.concurrency, 4) < 0 ==> reply == Error(InvalidArrayLength))
    ensures reply.Result? ==>
      && Truthy(msg.owner) && Truthy(msg.repo) && host.meta.Ok?
      && TreeOf(host, host.meta.body).outcome.Success?
      && var p := reply.payload;
      && p.repo == msg.owner.value + "/" + msg.repo.value
      && p.metadata == host.meta.body
      && p.filesAnalyzed == |p.samples|
      && p.samples == Gather(Fetcher(host, DefaultBranch(host.meta.body), NumberOr(msg.maxSnippetLength, 1000), false),
                             SelectedFiles(host, msg, host.meta.body))
      && (NumberOr(msg.maxSnippetLength, 1000) >= 0 ==>
            forall i :: 0 <= i < |p.samples| ==> |p.samples[i].snippet| <= NumberOr(msg.maxSnippetLength, 1000))
      && reply.preview == Preview(p.repo, p.metadata, p.filesAnalyzed, DefaultBranch(p.metadata))
  {
    if !Truthy(msg.owner) || !Truthy(msg.repo) {
      return Error(MissingOwnerOrRepo), [];
    }
    requests := [MetaReq];
    match host.meta {
      case Failed(m) =>
        reply := Error(m);
      case NotOk(status) =>
        reply := Error(MetaFailed(status));
      case Ok(meta) =>
        var tree := TreeOf(host, meta);
        requests := requests + tree.requests;
        if tree.outcome.Failure? {
          reply := Error(tree.outcome.error);
          return;
        }
        var fetched;
        reply, fetched := Assemble(msg, host, meta);
        requests := requests + fetched;
    }
  }

  /** The part of a run after the tree is there: select, fetch with the pool and assemble
      the payload and its preview. */
  method Assemble(msg: Message, host: Host, meta: Meta) returns (reply: Reply, requests: seq<Request>)
    requires Truthy(msg.owner) && Truthy(msg.repo) && TreeOf(host, meta).outcome.Success?
    ensures NumberOr(msg.concurrency, 4) > 0 ==> reply.Result?
    ensures NumberOr(msg.concurrency, 4) < 0 ==> reply == Error(InvalidArrayLength)
    ensures reply.Result? ==>
      && var p := reply.payload;
      && p.repo == msg.owner.value + "/" + msg.repo.value
      && p.metadata == meta
      && p.filesAnalyzed == |p.samples|
      && p.samples == Gather(Fetcher(host, DefaultBranch(meta), NumberOr(msg.maxSnippetLength, 1000), false),
                             SelectedFiles(host, msg, meta))
      && (NumberOr(msg.maxSnippetLength, 1000) >= 0 ==>
            forall i :: 0 <= i < |p.samples| ==> |p.samples[i].snippet| <= NumberOr(msg.maxSnippetLength, 1000))
      && reply.preview == Preview(p.repo, p.metadata, p.filesAnalyzed, DefaultBranch(p.metadata))
  {
    var branch := DefaultBranch(meta);
    var finalFiles := SelectedFiles(host, msg, meta);
    var fetcher := Fetcher(host, branch, NumberOr(msg.maxSnippetLength, 1000), false);
    var pooled;
    pooled, requests := FetchWithConcurrency(fetcher, finalFiles, NumberOr(msg.concurrency, 4));
    if pooled.Failure? {
      reply := Error(pooled.error);
      return;
    }
    var payload := Payload(msg.owner.value + "/" + msg.repo.value, meta, pooled.value, |pooled.value|);
    reply := Result(payload, Preview(payload.repo, meta, payload.filesAnalyzed, branch));
  }
}

=== FILE: wrappers.dfy ===
/** Failure-compatible wrappers used throughout the model. */
module Wrappers {

  /** A value that may be absent: JavaScript's `undefined`/missing property. */
  datatype Option<+T> = None | Some(value: T) {

    /** The value, or `default` when absent (JavaScript's `x ?? default`). */
    function GetOr(default: T): T {
      match this
      case Some(v) => v
      case None => default
    }
  }

  /** Either a value or an error; models a thrown exception as data. */
  datatype Result<+R, +E> = Success(value: R) | Failure(error: E)
}
